=== FILE: README.md ===
# MindEase core in Dafny

MindEase is a mental-wellness journaling web app. This project models the
parts of it that carry real logic, written as pure Dafny functions with
proved contracts:

- **Client-side journal encryption** (`Encryption`, `KeyLifecycle`). One
  browser-storage slot holds a JSON Web Key. The engine offers
  get-or-create, has, clear, export and import on that slot, and turns text
  into `base64(IV || AES-GCM ciphertext)` blobs and back.
  - Web Crypto, `TextEncoder`/`TextDecoder`, `btoa`/`atob` and `JSON.parse`
    are fields of a `Primitives` record. The laws the engine relies on form
    the predicate `Encryption.Lawful`: importing goes through `JSON.parse`
    and the empty string is not JSON; the round trips (UTF-8 up to a leading
    byte order mark); the 16-byte tag; and decryption of data shorter than
    the tag fails.
  - `EncryptionWitness` gives a concrete record that satisfies every law, so
    the laws are consistent.
  - Randomness (the generated key, the 12-byte IV) enters as parameters.
  - `KeyLifecycle` runs arbitrary sequences of calls over the storage. It
    proves the two-state NO_KEY / KEY_ACTIVE machine and the invariants that
    hold across any such sequence.
- **Sentiment classifier** (`Sentiment`). The mean of per-sentence scores is
  mapped to a label, an emoji and a score from 1 to 5 by five threshold
  bands. It has a neutral default for blank text.
- **Journal text analyzer** (`AnalyzeJournal`). It validates the length, then
  counts words, sentences and keyword hits. It computes a rounded
  words-per-sentence average and assembles the report from paragraphs
  chosen by threshold rules, followed by three suggestions.
- **Journal schema** (`JournalSchema`). The validity rules and defaults of a
  stored journal document.
- **Journal route** (`JournalQuery`, `JournalRoute`).
  - `GET` checks the caller, then returns one page of that user's journals,
    newest first, with `totalPages` and `hasMore`.
  - `POST` checks the caller, then creates a journal with the schema's
    defaults.
- **Data export** (`ExportRoute`). The profile, every journal with its fields
  copied, the entry count, and the mood-distribution fold.
- **Route guard** (`Middleware`). Protected path prefixes combined with the
  no-token, invalid-token and valid-token outcomes.
- `Text` holds the JavaScript string operations the routes use: `trim`,
  UTF-16 `.length`, `split` on separator runs, `startsWith`, `includes`,
  ASCII `toLowerCase` and number printing. `Wrappers` holds `Option` and
  `Result`.

Behaviour of the code that the model keeps, where it may surprise a reader:

- `TextDecoder` is not fatal. Decoding never fails, and malformed UTF-8 is
  replaced rather than reported, so `decodeUtf8` is total.
- `new TextDecoder()` leaves `ignoreBOM` false, so it drops a leading byte
  order mark (U+FEFF). A plaintext starting with U+FEFF decrypts without it:
  the round trips give back `Encryption.StripBom(plaintext)`.
- `importEncryptionKey` checks only that the text parses as JSON, not that it
  is a key. JSON that is not a key is stored, and the next key lookup
  replaces it (`Encryption.ImportedNonKeyIsReplaced`).
- An empty string in the slot is falsy. `getOrCreateEncryptionKey` and
  `exportEncryptionKey` treat it as absent, but `hasEncryptionKey` reports it
  as present.
- On the export route, a token that fails verification makes `jwt.verify`
  throw, so the answer is 500, not 401.
- On the journal list, a page below 1 gives a negative skip, which the
  database rejects, so the answer is 500.
- The schema in `Prototypes/mindease-platform/models/Journal.ts` declares no
  `updatedAt`, so documents it creates carry none. The routes import
  `mindease-platform`'s own `models/Journal`, which is not part of this model;
  the export copies `updatedAt` from whatever that model stores.
- The mood distribution folds into a plain `{}`. A mood named like a method of
  `Object.prototype` (`constructor`, `toString`, …) reads that method
  through the prototype, so `+ 1` turns it into the method's source text
  followed by "1". A mood of `__proto__` hits the prototype accessor, whose
  setter ignores the resulting text, so it never becomes a key.
- A request body that is not JSON, or is JSON `null`, makes the destructuring
  of `await req.json()` throw, so both `POST` routes answer 500.

## Model

| member | source | states |
|---|---|---|
| Encryption.GenerateAndStoreKey | mindease-platform/lib/encryption.ts:13-28 | returns the generated key; the slot holds its JWK export; every other storage entry is unchanged; under the laws the slot then yields that very key |
| Encryption.GetOrCreateEncryptionKey | mindease-platform/lib/encryption.ts:34-57 | a stored string that is non-empty, JSON and importable gives its key with storage untouched; otherwise the new key is generated and its export written; other entries never change; under the laws the slot afterwards yields the returned key |
| Encryption.HasEncryptionKey | mindease-platform/lib/encryption.ts:129-131 | true exactly when the slot is not null |
| Encryption.ClearEncryptionKey | mindease-platform/lib/encryption.ts:137-139 | the slot is gone afterwards and nothing else changes |
| Encryption.ExportEncryptionKey | mindease-platform/lib/encryption.ts:144-150 | succeeds exactly when the slot is present and non-empty, returning the stored string verbatim; otherwise fails with "No encryption key found" |
| Encryption.ImportEncryptionKey | mindease-platform/lib/encryption.ts:155-163 | for storage that accepts the write, succeeds exactly when the text is JSON, then the slot holds exactly that text and nothing else changes; otherwise fails with "Invalid encryption key format" and writes nothing |
| Encryption.StripBom | mindease-platform/lib/encryption.ts:118-119 | what `new TextDecoder()` gives back for UTF-8 bytes loses at most one character, a leading U+FEFF, and the text comes back unchanged exactly when it does not start with U+FEFF |
| Encryption.Frame | mindease-platform/lib/encryption.ts:84-89 | the combined bytes are 12 + the sealed length long, with the IV first and the sealed data after it |
| Encryption.Unframe | mindease-platform/lib/encryption.ts:101-105 | the two slices concatenate back to the input, and the first is 12 bytes long, or all of a shorter input |
| Encryption.EncryptText | mindease-platform/lib/encryption.ts:63-90 | storage as after a key lookup; under the laws the blob base64-decodes to IV followed by the ciphertext of the UTF-8 bytes under the stored key, which is 12 + data + 16 bytes long |
| Encryption.ShortBlobFails | mindease-platform/lib/encryption.ts:96-124 | a blob that is not base64, or decodes to fewer than 12 + 16 bytes, fails with the single "Failed to decrypt data..." error, and the key lookup still happens |
| Encryption.DecryptText | mindease-platform/lib/encryption.ts:96-124 | storage as after a key lookup; every failure is the single "Failed to decrypt data..." error; under the laws it succeeds exactly when the blob decodes and authenticates under the stored key, yielding the decoded plaintext |
| Encryption.GetOrCreateOnEmptySlot | mindease-platform/lib/encryption.ts:34-57 | on an empty slot the generated key is returned and `hasEncryptionKey` is true afterwards |
| Encryption.GetOrCreateIsStable | mindease-platform/lib/encryption.ts:35-49 | a second lookup returns the first lookup's key and writes nothing |
| Encryption.GetOrCreateReplacesMalformed | mindease-platform/lib/encryption.ts:50-53 | a stored string that is not JSON or not a key is overwritten with the new key's export |
| Encryption.ImportOfExportIsNoOp | mindease-platform/lib/encryption.ts:144-163 | importing the exported string back, when accepted, leaves storage exactly as it was |
| Encryption.ImportedNonKeyIsReplaced | mindease-platform/lib/encryption.ts:155-163 | JSON that is not a key is accepted by import and discarded by the next key lookup |
| Encryption.UnframeFrame | mindease-platform/lib/encryption.ts:101-105 | splitting a framed blob at 12 recovers exactly the IV and the sealed data |
| Encryption.FrameUnframe | mindease-platform/lib/encryption.ts:84-89 | any byte string of at least 12 bytes is the framing of its own split |
| Encryption.EncryptDecryptRoundTrip | mindease-platform/lib/encryption.ts:63-124 | with storage left as encryption left it, decryption returns the plaintext, less a leading byte order mark, and writes nothing |
| Encryption.RoundTripIsExactUnlessBom | mindease-platform/lib/encryption.ts:63-124 | decryption always succeeds on a fresh blob, gives back exactly the journal text when it does not start with U+FEFF, and otherwise the text without that first character |
| Encryption.DistinctIvsGiveDistinctBlobs | mindease-platform/lib/encryption.ts:67-89 | the same text encrypted with two different IVs gives two different blobs |
| Encryption.DecryptOnEmptySlotStoresKey | mindease-platform/lib/encryption.ts:96-123 | decrypting on an empty slot stores a generated key even when decryption then fails, and the failure carries no text |
| Encryption.ClearOrphansBlobs | mindease-platform/lib/encryption.ts:133-139 | after clearing, a blob the new key does not authenticate fails to decrypt, and the new key is what the slot now holds |
| KeyLifecycle.ApplyFollowsMachine | mindease-platform/lib/encryption.ts:13-163 | each call moves the slot between NO_KEY and KEY_ACTIVE as the two-state machine prescribes |
| KeyLifecycle.RunFollowsMachine | mindease-platform/lib/encryption.ts:13-163 | any sequence of calls moves the slot as the machine run over the same sequence |
| KeyLifecycle.ExportedKeyIsJson | mindease-platform/lib/encryption.ts:24-25 | what key generation writes to the slot parses as JSON |
| KeyLifecycle.ApplyKeepsSlotParseable | mindease-platform/lib/encryption.ts:155-159 | no call leaves a non-JSON string in an empty or JSON slot |
| KeyLifecycle.RunKeepsSlotParseable | mindease-platform/lib/encryption.ts:155-159 | no sequence of calls ever leaves a non-JSON string in the slot |
| KeyLifecycle.RunLeavesOtherEntries | mindease-platform/lib/encryption.ts:6-163 | no sequence of calls touches any storage entry other than the key slot |
| KeyLifecycle.KeyKeepingRunKeepsKey | mindease-platform/lib/encryption.ts:35-49 | while no direct `generateAndStoreKey`, clear or import happens, a usable stored key stays the stored key |
| KeyLifecycle.BlobSurvivesKeyKeepingRun | mindease-platform/lib/encryption.ts:63-124 | a blob stays decryptable to its plaintext, less a leading byte order mark, across any sequence of calls without a direct `generateAndStoreKey`, a clear or an import |
| KeyLifecycle.BackupRestoresKey | mindease-platform/lib/encryption.ts:141-163 | importing an exported backup after any sequence of calls restores the slot and its key |
| Sentiment.Classify | Prototypes/mindease-platform/lib/sentiment.ts:30-50 | the score is between 1 and 5, and the label and emoji are functions of the score alone |
| Sentiment.AnalyzeSentiment | Prototypes/mindease-platform/lib/sentiment.ts:6-53 | blank text or text without sentences gives (Neutral, 😐, 3); otherwise the bands applied to the mean sentence score |
| Sentiment.ScoreIsMonotone | Prototypes/mindease-platform/lib/sentiment.ts:30-50 | a higher average never gives a lower score |
| Sentiment.BandUpperBoundsAreInclusive | Prototypes/mindease-platform/lib/sentiment.ts:30-50 | -0.4, -0.1, 0.1 and 0.4 score 1, 2, 3 and 4; everything above 0.4 scores 5 |
| Sentiment.EmojiIdentifiesScore | Prototypes/mindease-platform/lib/sentiment.ts:30-50 | two scores show the same emoji only when they are equal |
| Sentiment.Mean | Prototypes/mindease-platform/lib/sentiment.ts:22 | when every sentence has the same score, the average is that score |
| Sentiment.SumBounds | Prototypes/mindease-platform/lib/sentiment.ts:22 | a sum of n scores within [lo, hi] lies within [n·lo, n·hi] |
| Sentiment.MeanBounds | Prototypes/mindease-platform/lib/sentiment.ts:19-22 | the average of scores within [lo, hi] lies within [lo, hi] |
| Sentiment.ScoreBetweenExtremeSentences | Prototypes/mindease-platform/lib/sentiment.ts:19-50 | the text's score lies between the scores of its lowest and its highest sentence |
| JournalSchema.ParseLabel | Prototypes/mindease-platform/models/Journal.ts:18-21 | a value accepted by the sentiment enum is the name of the label it parses to |
| JournalSchema.ParseLabelName | Prototypes/mindease-platform/models/Journal.ts:18-21 | every label name passes the enum and parses back to its label |
| JournalSchema.AnalyzedLabelIsAllowed | Prototypes/mindease-platform/models/Journal.ts:18-21 | every label the sentiment classifier produces is an allowed sentiment value |
| JournalSchema.Create | Prototypes/mindease-platform/models/Journal.ts:3-34 | succeeds exactly when userId is present, the title is non-empty and at most 100 UTF-16 units, the content is non-empty, and any sentiment is one of the three names; a failure lists at least one violation; a success copies the fields, with sentiment defaulting to Neutral, moodManuallySet to false, createdAt to now, and no updatedAt |
| JournalSchema.Violations | Prototypes/mindease-platform/models/Journal.ts:4-21 | each validator fails exactly when its own rule is broken: userId absent, title absent or empty, title over 100 UTF-16 units, content absent or empty, sentiment outside the enum |
| JournalSchema.RefusalReportsEveryViolation | Prototypes/mindease-platform/models/Journal.ts:3-34 | `create` refuses exactly when some validator fails, and the refusal carries every failing validator at once |
| JournalQuery.OwnedBy | mindease-platform/app/api/journal/route.ts:39-42 | only documents of the user, each as often as in the collection, none of anyone else's |
| JournalQuery.InsertByDate | mindease-platform/app/api/journal/route.ts:43 | inserting into a newest-first sequence keeps it newest first and adds exactly that document |
| JournalQuery.SortNewestFirst | mindease-platform/app/api/journal/route.ts:43 | the result is newest first and a permutation of the input |
| JournalQuery.UserJournals | mindease-platform/app/api/journal/route.ts:42-43 | the query result is newest first, holds only the user's documents, and holds each of them as often as the collection does |
| JournalQuery.UserJournalsCount | mindease-platform/app/api/journal/route.ts:39-45 | the query returns as many documents as `countDocuments` counts |
| JournalQuery.InUserJournals | mindease-platform/app/api/journal/route.ts:42-43 | a document is in the query result exactly when it is stored and belongs to the user |
| JournalRoute.Caller | mindease-platform/app/api/journal/route.ts:9-21 | a caller exists exactly when a token is present, verifies, and carries a non-empty id |
| JournalRoute.CeilDiv | mindease-platform/app/api/journal/route.ts:53 | the fewest pages of `limit` that hold all documents |
| JournalRoute.Window | mindease-platform/app/api/journal/route.ts:44-45 | drops `skip` documents and keeps at most `limit`: element i is document skip + i, and the length is what remains, capped at `limit` |
| JournalRoute.WindowNewestFirst | mindease-platform/app/api/journal/route.ts:42-45 | a window of a newest-first result is newest first |
| JournalRoute.SkipSign | mindease-platform/app/api/journal/route.ts:36 | the skip is negative exactly when the page is below 1 |
| JournalRoute.ListPage | mindease-platform/app/api/journal/route.ts:33-56 | the journals are page `page` of the caller's newest-first result (`PageWindow`, so the tiling lemmas apply to what `GET` returns): at most `limit` journals, all the caller's, newest first; totalCount is the caller's count and totalPages its ceiling over `limit`; hasMore holds exactly when skip + returned < totalCount |
| JournalRoute.ListPageSkipsThenLimits | mindease-platform/app/api/journal/route.ts:36-45 | page `page` is the caller's result after dropping the first (page − 1)·limit journals: journal i is result journal skip + i, and there are min(limit, remaining) of them, none when skip reaches the end |
| JournalRoute.ListedPagesCoverCallersJournals | mindease-platform/app/api/journal/route.ts:36-53 | requesting pages 1..totalPages returns every one of the caller's journals exactly once, newest first, and page totalPages + 1 is empty |
| JournalRoute.ListJournals | mindease-platform/app/api/journal/route.ts:23-60 | 401 exactly without a caller; 500 exactly for a caller with a page below 1; otherwise the page with defaults page 1 and limit 10 (a caller id is taken to be a valid `ObjectId`) |
| JournalRoute.PagesTile | mindease-platform/app/api/journal/route.ts:36-45 | pages 1..k together are the first k·limit documents of the result |
| JournalRoute.PagesCoverResult | mindease-platform/app/api/journal/route.ts:36-53 | pages 1..totalPages return every document exactly once, in order, and the page after them is empty |
| JournalRoute.PageNonEmptyIffWithinTotal | mindease-platform/app/api/journal/route.ts:44-53 | a page holds documents exactly when its number is at most totalPages |
| JournalRoute.ListPageHasMore | mindease-platform/app/api/journal/route.ts:44-54 | on any page, hasMore holds exactly when the following page is not empty |
| JournalRoute.HasMoreIffNextPageNonEmpty | mindease-platform/app/api/journal/route.ts:54 | hasMore is reported exactly when the next page holds documents |
| JournalRoute.CreateJournal | mindease-platform/app/api/journal/route.ts:62-86 | 401 exactly without a caller; a caller's body that is not JSON or is `null` gives 500; a created journal is appended and is exactly what the schema makes of the draft: it belongs to the caller, has the body's title, content and mood, the body's sentiment or Neutral, moodManuallySet defaulting to false, and is created now; it is created exactly when the schema accepts the draft (a caller id is taken to be a valid `ObjectId`); otherwise nothing is stored |
| JournalRoute.UnauthorizedTouchesNothing | mindease-platform/app/api/journal/route.ts:23-69 | without a caller, GET answers 401 and POST answers 401 with the collection unchanged |
| AnalyzeJournal.Filter | Prototypes/mindease-platform/app/api/analyze-journal/route.ts:20 | `filter` keeps only accepted pieces, and every accepted piece, never more than it was given |
| AnalyzeJournal.FilterConcat | Prototypes/mindease-platform/app/api/analyze-journal/route.ts:20 | filtering a concatenation is filtering each part, so kept pieces stay in input order |
| AnalyzeJournal.FilterCountsKept | Prototypes/mindease-platform/app/api/analyze-journal/route.ts:20-21 | `filter` returns as many pieces as there are positions it accepts |
| AnalyzeJournal.NonBlank | Prototypes/mindease-platform/app/api/analyze-journal/route.ts:20 | keeps exactly the pieces that are not blank, and no more pieces than it was given |
| AnalyzeJournal.NonBlankCountsVisible | Prototypes/mindease-platform/app/api/analyze-journal/route.ts:20-21 | the blank filter keeps one piece per segment holding a non-white-space character |
| AnalyzeJournal.SentenceCount | Prototypes/mindease-platform/app/api/analyze-journal/route.ts:20-21 | the sentence count is the number of terminator-separated segments that hold a character other than white space |
| AnalyzeJournal.WordCount | Prototypes/mindease-platform/app/api/analyze-journal/route.ts:19 | at least 1 for any content, since splitting the empty string still yields one piece |
| AnalyzeJournal.KeywordCount | Prototypes/mindease-platform/app/api/analyze-journal/route.ts:30-32 | at most the list's length, and 0 exactly when no listed word occurs in the text |
| AnalyzeJournal.Message | Prototypes/mindease-platform/app/api/analyze-journal/route.ts:38-69 | every paragraph's message ends with a blank line |
| AnalyzeJournal.Render | Prototypes/mindease-platform/app/api/analyze-journal/route.ts:37-69 | the paragraphs give empty text exactly when there are none; otherwise it starts with an emoji and ends with a blank line |
| AnalyzeJournal.NonBlankEmptyIffAllBlank | Prototypes/mindease-platform/app/api/analyze-journal/route.ts:20 | the filter keeps nothing exactly when every piece is blank |
| AnalyzeJournal.KeptIffNotBlank | Prototypes/mindease-platform/app/api/analyze-journal/route.ts:21 | `s.trim().length > 0` holds exactly when the piece is not all white space |
| AnalyzeJournal.FilterEmptyIffNoneKept | Prototypes/mindease-platform/app/api/analyze-journal/route.ts:21 | `filter` returns nothing exactly when it rejects every piece |
| AnalyzeJournal.RoundDiv | Prototypes/mindease-platform/app/api/analyze-journal/route.ts:22 | `Math.round(n / d)`: 2n − d < 2rd ≤ 2n + d |
| AnalyzeJournal.Found | Prototypes/mindease-platform/app/api/analyze-journal/route.ts:30-32 | a word is kept exactly when it is in the list and occurs in the text; no more than the list; no repeats from a list without repeats |
| AnalyzeJournal.Measure | Prototypes/mindease-platform/app/api/analyze-journal/route.ts:19-32 | positive, negative and reflective counts are at most 16, 15 and 10 |
| AnalyzeJournal.Sections | Prototypes/mindease-platform/app/api/analyze-journal/route.ts:37-69 | opens with the label's tone paragraph, which quotes the keyword count exactly when a positive entry has more than 2 positive words or a negative entry more than 2 negative words; Deep Reflection exactly when reflectiveCount ≥ 3; Detailed exactly above 200 words; Brief exactly below 50; Complex Thoughts exactly above 20 words per sentence; nothing else follows the tone paragraph, and the paragraphs come in that order with none repeated |
| AnalyzeJournal.Suggestions | Prototypes/mindease-platform/app/api/analyze-journal/route.ts:74-86 | exactly three suggestions for each label |
| AnalyzeJournal.SuggestionsBlock | Prototypes/mindease-platform/app/api/analyze-journal/route.ts:72-86 | the suggestions block starts and ends with visible characters |
| AnalyzeJournal.Analyze | Prototypes/mindease-platform/app/api/analyze-journal/route.ts:4-109 | 500 exactly for a body that is not JSON or is `null`; 400 with "Content must be at least 20 characters" exactly when content is missing, empty, or under 20 UTF-16 units once trimmed; otherwise the classifier's label and emoji, the measured metrics echoed, and the trimmed report |
| AnalyzeJournal.TrimRemovesOnlyFinalBreak | Prototypes/mindease-platform/app/api/analyze-journal/route.ts:89 | the final `trim()` removes only the trailing line break |
| AnalyzeJournal.ReportIsSectionsThenSuggestions | Prototypes/mindease-platform/app/api/analyze-journal/route.ts:72-89 | the report is every chosen paragraph in full followed by the suggestions header and its three bullets |
| AnalyzeJournal.MetricsAreTheCounts | Prototypes/mindease-platform/app/api/analyze-journal/route.ts:19-32 | for accepted content the echoed metrics are the white-space token count, the number of visible sentence segments, the word count per sentence rounded to nearest (divisor 1 without sentences), and the number of distinct keywords of each list found in the lower-cased content |
| AnalyzeJournal.WordCountCountsTokens | Prototypes/mindease-platform/app/api/analyze-journal/route.ts:19 | for accepted content the word count is the number of white-space-separated tokens, and at least 1 |
| AnalyzeJournal.NoSentenceIffOnlyPunctuation | Prototypes/mindease-platform/app/api/analyze-journal/route.ts:20-21 | no sentence is counted exactly when the content is only white space and `.`, `!`, `?` |
| AnalyzeJournal.NoSentenceAverageIsWordCount | Prototypes/mindease-platform/app/api/analyze-journal/route.ts:22 | with no sentence, the average is the word count, because it divides by 1 |
| AnalyzeJournal.RoundDivIsNearest | Prototypes/mindease-platform/app/api/analyze-journal/route.ts:22 | the rounded average is the only integer within half a step of n / d |
| AnalyzeJournal.KeywordCountCountsDistinctHits | Prototypes/mindease-platform/app/api/analyze-journal/route.ts:30-32 | a keyword count is the number of distinct list entries found, not the number of occurrences |
| AnalyzeJournal.KeywordListsAreDistinct | Prototypes/mindease-platform/app/api/analyze-journal/route.ts:25-27 | no keyword list repeats an entry |
| AnalyzeJournal.HopelessAlsoCountsAsHope | Prototypes/mindease-platform/app/api/analyze-journal/route.ts:25-31 | text containing "hopeless" counts toward both the negative and the positive list |
| Text.Trim | Prototypes/mindease-platform/app/api/analyze-journal/route.ts:8 | `trim` is never longer than its input and neither starts nor ends with white space |
| Text.Split | Prototypes/mindease-platform/app/api/analyze-journal/route.ts:19-20 | `split` on a separator run always yields at least one piece, and no piece holds a separator character |
| Text.TrimIsInfix | Prototypes/mindease-platform/app/api/analyze-journal/route.ts:8 | `trim` keeps an infix of its input and cuts away only white space on either side |
| Text.TrimEmptyIffBlank | Prototypes/mindease-platform/app/api/analyze-journal/route.ts:8 | `trim` gives the empty string exactly for text that is all white space |
| Text.Utf16Length | Prototypes/mindease-platform/app/api/analyze-journal/route.ts:8 | `.length` is between the code-point count and twice it, and equals it for text inside the Basic Multilingual Plane |
| Text.SplitCountsTokens | Prototypes/mindease-platform/app/api/analyze-journal/route.ts:19 | splitting text that starts and ends with a token gives one piece per token |
| Text.SplitTrimCountsTokens | Prototypes/mindease-platform/app/api/analyze-journal/route.ts:19 | splitting trimmed non-empty text on white space gives one piece per word, so at least one |
| Text.ConcatSplit | Prototypes/mindease-platform/app/api/analyze-journal/route.ts:20 | splitting loses only the separator characters |
| ExportRoute.ExportUserData | mindease-platform/app/api/user/export/route.ts:11-67 | 401 exactly without a non-empty token; 500 exactly when verification throws; 404 exactly for an unknown user; otherwise the profile, each of the user's journals newest first mapped field for field, totalJournalEntries = the user's count, and the mood tally |
| ExportRoute.Tally | mindease-platform/app/api/user/export/route.ts:52-57 | the reduce never creates a key for an empty mood or for `__proto__` |
| ExportRoute.PrototypeNamedMoods | mindease-platform/app/api/user/export/route.ts:52-57 | a lone mood `constructor` is recorded as "function Object() { [native code] }1", and a lone mood `__proto__` is not recorded |
| ExportRoute.RestoreExport | mindease-platform/app/api/user/export/route.ts:41-49 | an exported journal plus its owner rebuilds the stored journal: only the owner is dropped |
| ExportRoute.ExportList | mindease-platform/app/api/user/export/route.ts:41-49 | one exported entry per journal, in the same order, each the field copy of its journal |
| ExportRoute.ExportListMembers | mindease-platform/app/api/user/export/route.ts:31-49 | the export of the user's query result holds exactly the exports of the user's stored journals |
| ExportRoute.Occurrences | mindease-platform/app/api/user/export/route.ts:52-57 | the count of journals with a given mood is positive exactly when one has it, and never exceeds the number of journals |
| ExportRoute.TallyAt | mindease-platform/app/api/user/export/route.ts:52-57 | for any one mood: it is a key exactly when non-empty, not `__proto__` and occurring, and then holds the count or the prototype text its occurrences give |
| ExportRoute.TallyCounts | mindease-platform/app/api/user/export/route.ts:52-57 | the keys are exactly the non-empty moods that occur, other than `__proto__`; an ordinary mood maps to how often it occurs, the name of an `Object.prototype` method to its source text followed by one "1" per occurrence |
| ExportRoute.TallySum | mindease-platform/app/api/user/export/route.ts:51-57 | the numeric counts add up to the journals whose mood is non-empty and not a prototype name, so never more than the number of entries |
| ExportRoute.ExportedAreTheCallersJournals | mindease-platform/app/api/user/export/route.ts:31-49 | every exported entry is one of the caller's stored journals, and every stored journal of the caller is exported |
| ExportRoute.StatisticsMatchJournals | mindease-platform/app/api/user/export/route.ts:50-57 | totalJournalEntries equals the exported list's length; the distribution records each occurring mood other than `__proto__` with its number of occurrences; its numeric sum is at most totalJournalEntries |
| Middleware.AnyPrefixIffSome | mindease-platform/middleware.ts:22-24 | `some(startsWith)` holds exactly when one route is a prefix of the path |
| Middleware.Guard | mindease-platform/middleware.ts:18-56 | the request passes exactly when the path is unprotected or a present token verifies; a redirect goes to the same URL with pathname `/register` and deletes the token exactly when one was present |
| Middleware.ExtensionStaysProtected | mindease-platform/middleware.ts:22-24 | every extension of a protected path is protected |
| Middleware.HelpfulIsProtected | mindease-platform/middleware.ts:8-24 | `/helpful` is protected, because matching is by prefix and not by segment |
| Middleware.RedirectTargetPassesThrough | mindease-platform/middleware.ts:8-34 | `/register` is unprotected, so the redirect target always passes and the guard cannot loop |
| Middleware.AccessRule | mindease-platform/middleware.ts:26-55 | every outcome passes or redirects to `/register`, and the token is deleted only when one was presented on a protected path and failed |

## Left out

- Web Crypto is not implemented: AES-GCM, `generateKey`, JWK import and export, and `getRandomValues`. So are `TextEncoder`/`TextDecoder`, `btoa`/`atob` and `JSON.parse`. They are the fields of `Encryption.Primitives`, constrained only by the laws of `Encryption.Lawful`: a key text that imports is JSON, the empty string is not JSON, the JWK, AES-GCM, UTF-8 and base64 round trips, the 16-byte tag, and the failure of decrypting data shorter than the tag.
- Encryption.DecryptText: does not state that a blob sealed under another key fails to decrypt. That is a computational-security property of AES-GCM, not a law any model of finite functions can make hold for every key. The lemmas state it relative to `open` instead (`Encryption.ClearOrphansBlobs`).
- Encryption.EncryptText: the IV is a parameter. Its randomness, and so the uniqueness of IVs across calls, is assumed, not modelled.
- Encryption.EncryptText: `String.fromCharCode(...combined)` passes every byte as a separate argument. The engine throws a `RangeError` once the blob has more bytes than it accepts as arguments (around 10^5 in V8). That limit is engine-specific, so the model is total and never throws it.
- Strings are sequences of Unicode scalar values. A JavaScript string with a lone surrogate, which `TextEncoder` would replace with U+FFFD, cannot be written.
- Async steps and concurrency: each call is one atomic step on the storage.
- Encryption.ImportEncryptionKey: storage is a total map, so `localStorage.setItem` never throws here. In a browser it can throw (quota exceeded, storage disabled). The single `catch` (mindease-platform/lib/encryption.ts:156-162) then reports "Invalid encryption key format" even for valid JSON. So "succeeds exactly when the text is JSON" holds only for storage that accepts the write.
- Encryption.GenerateAndStoreKey: the same storage failure at mindease-platform/lib/encryption.ts:25 would reject the call. It would also reject `getOrCreateEncryptionKey`, `encryptText` and `decryptText`, which call it. The model assumes the write succeeds.
- Sentence splitting and per-sentence scoring belong to wink-nlp. They enter as the sequence `sentenceScores`, so "no sentences" is the empty sequence.
- Sentiment.Classify: averages are exact `real`s, so IEEE-754 rounding exactly at the band boundaries is not captured.
- AnalyzeJournal.Measure: `toLowerCase` folds only the ASCII letters. Every keyword is ASCII, but other letters that lowercase to ASCII (the Kelvin sign, for one) are not folded.
- JournalRoute.ListJournals: requires a positive `limit`. A `limit` of 0 or below, and `parseInt` producing `NaN`, are outside the model.
- JournalRoute.ListJournals: a caller id that is not a valid `ObjectId` makes `countDocuments` and `find` fail to cast the `userId` filter (mindease-platform/app/api/journal/route.ts:39-45). The source then answers 500. Here every id matches the documents stored under it, so such a caller gets an empty page (200).
- JournalRoute.CreateJournal: a caller id that is not a valid `ObjectId` makes `Journal.create` fail to cast `userId` (mindease-platform/app/api/journal/route.ts:73-80). The source then answers 500. Here the journal is created.
- JournalQuery.SortNewestFirst: journals with equal `createdAt` keep their collection order. MongoDB leaves that order unspecified.
- ExportRoute.ExportUserData: an id that is not a valid `ObjectId` makes `findById` throw (500). Here every id is either a known user or unknown (404).
- ExportRoute.ExportUserData: the source text of an inherited method is written as V8 prints a built-in function (`function toString() { [native code] }`). Other engines may format it differently.
- JournalRoute.CreateJournal: only `moodManuallySet || false` is modelled for a missing or boolean field. Other falsy or non-boolean body values are not. Every other field is a string or absent. Values of another JSON type, which Mongoose would cast or refuse, are not modelled. A body that is not JSON, or is `null`, is modelled (500).
- MongoDB, Mongoose, `jwt.verify` and `jwtVerify` are abstracted. The collection is a sequence, the users are a map, and token checks are function parameters.
- The middleware's `config.matcher` pattern (mindease-platform/middleware.ts:58-70) is Next.js routing behaviour, so it is not modelled.
- The OpenAI chat routes, the auth and user routes, the dashboard route, the prototype journal route, and every page, component, context, style and data file are not modelled. They are network calls, UI, or guards around the same abstracted database and token calls.

=== FILE: analyze_journal.dfy ===
/**
 * The journal analysis route (`POST /api/analyze-journal`): it validates the
 * entry's length, measures it (words, sentences, words per sentence, emotional
 * and reflective keywords), and assembles a report of paragraphs chosen by
 * threshold rules, ending with three suggestions picked by the sentiment
 * label. The per-sentence sentiment scores are the parameter `sentenceScores`
 * (see `Sentiment.AnalyzeSentiment`).
 */
module AnalyzeJournal {
  import opened Wrappers
  import Text
  import opened Sentiment

  /** The fewest UTF-16 code units the trimmed content must have. */
  const MinContentLength: nat := 20

  const ContentTooShort: string := "Content must be at least 20 characters"

  const PositiveWords: seq<string> :=
    ["happy", "joy", "excited", "grateful", "love", "wonderful", "great", "amazing",
     "blessed", "proud", "hope", "peaceful", "content", "better", "progress", "accomplished"]

  const NegativeWords: seq<string> :=
    ["sad", "angry", "frustrated", "worried", "anxious", "depressed", "hopeless", "tired",
     "exhausted", "overwhelmed", "stressed", "difficult", "struggle", "pain", "hurt"]

  const ReflectiveWords: seq<string> :=
    ["think", "feel", "realize", "understand", "learn", "reflect", "consider", "wonder",
     "believe", "question"]

  /** What `await req.json()` gives the destructuring: a body that is not JSON,
      or is `null`, makes it throw; any other JSON value supplies its
      `content` field, `None` when that is absent or not a string. */
  datatype Request = UnreadableBody | Json(content: Option<string>)

  /** The `metrics` object of a successful response. */
  datatype Metrics = Metrics(
    wordCount: nat,
    sentenceCount: nat,
    avgWordsPerSentence: nat,
    positiveCount: nat,
    negativeCount: nat,
    reflectiveCount: nat)

  /** 500, 400 with its message, or 200 with the report. */
  datatype Response =
    | ServerError
    | BadRequest(error: string)
    | Analysis(analysis: string, sentiment: Label, mood: string, metrics: Metrics)

  /** The validation guard: content present, a non-empty string, and at least
      twenty code units long once trimmed. */
  predicate Acceptable(content: Option<string>) {
    content.Some? && content.value != "" && Text.Utf16Length(Text.Trim(content.value)) >= MinContentLength
  }

  /** `content.trim().split(/\s+/).length`: never 0, since splitting the
      empty string still yields one (empty) piece. */
  function WordCount(content: string): (n: nat)
    ensures n >= 1
  {
    |Text.Split(Text.Trim(content), Text.Whitespace)|
  }

  /** `s => s.trim().length > 0`. */
  predicate Kept(piece: string) {
    Text.Utf16Length(Text.Trim(piece)) > 0
  }

  /** A piece is kept exactly when it is not blank. */
  lemma KeptIffNotBlank(piece: string)
    ensures Kept(piece) <==> !Text.IsBlank(piece)
  {
    Text.TrimEmptyIffBlank(piece);
  }

  /** `pieces.filter(keep)`. */
  function Filter(pieces: seq<string>, keep: string -> bool): (r: seq<string>)
    ensures |r| <= |pieces|
    ensures forall p :: p in r ==> p in pieces && keep(p)
    ensures forall i :: 0 <= i < |pieces| && keep(pieces[i]) ==> pieces[i] in r
  {
    if pieces == [] then []
    else
      var rest := Filter(pieces[1..], keep);
      assert forall i :: 1 <= i < |pieces| ==> pieces[i] == pieces[1..][i - 1];
      if keep(pieces[0]) then [pieces[0]] + rest else rest
  }

  /** The first piece is kept or dropped, then the rest is filtered. */
  lemma FilterUnfold(pieces: seq<string>, keep: string -> bool)
    requires pieces != []
    ensures Filter(pieces, keep) == (if keep(pieces[0]) then [pieces[0]] else []) + Filter(pieces[1..], keep)
  {
    if !keep(pieces[0]) {
      assert [] + Filter(pieces[1..], keep) == Filter(pieces[1..], keep);
    }
  }

  lemma ConcatTail(a: seq<string>, b: seq<string>)
    requires a != []
    ensures a + b != [] && (a + b)[0] == a[0] && (a + b)[1..] == a[1..] + b
  {
  }

  lemma ConcatAssoc(x: seq<string>, y: seq<string>, z: seq<string>)
    ensures x + (y + z) == (x + y) + z
  {
  }

  /** Filtering distributes over concatenation, so the kept pieces stay in
      their original order. */
  lemma {:induction false} FilterConcat(a: seq<string>, b: seq<string>, keep: string -> bool)
    ensures Filter(a + b, keep) == Filter(a, keep) + Filter(b, keep)
  {
    if a != [] {
      FilterConcat(a[1..], b, keep);
      ConcatTail(a, b);
      FilterUnfold(a + b, keep);
      FilterUnfold(a, keep);
      var head := if keep(a[0]) then [a[0]] else [];
      ConcatAssoc(head, Filter(a[1..], keep), Filter(b, keep));
    } else {
      assert a + b == b;
    }
  }

  /** A filter keeps nothing exactly when it rejects every piece. */
  lemma {:induction false} FilterEmptyIffNoneKept(pieces: seq<string>, keep: string -> bool)
    ensures Filter(pieces, keep) == [] <==> forall p :: p in pieces ==> !keep(p)
  {
    if pieces != [] {
      FilterEmptyIffNoneKept(pieces[1..], keep);
      assert pieces == [pieces[0]] + pieces[1..];
    }
  }

  /** The positions of the pieces a filter keeps. */
  function KeptAt(pieces: seq<string>, keep: string -> bool): set<nat> {
    set i: nat | i < |pieces| && keep(pieces[i])
  }

  /** Moving every element of a set of positions one place on. */
  function Shift(s: set<nat>): set<nat> {
    set i | i in s :: i + 1
  }

  lemma {:induction false} ShiftKeepsSize(s: set<nat>)
    ensures |Shift(s)| == |s|
    decreases |s|
  {
    if s != {} {
      var x :| x in s;
      ShiftKeepsSize(s - {x});
      forall i ensures i in Shift(s) <==> i in Shift(s - {x}) || i == x + 1 {
        if i in Shift(s) && i != x + 1 {
          var j :| j in s && i == j + 1;
          assert j in s - {x};
        }
      }
      assert Shift(s) == Shift(s - {x}) + {x + 1};
      assert x + 1 !in Shift(s - {x});
    }
  }

  /** The accepted positions of a non-empty sequence: position 0 when its
      head is accepted, and the accepted positions of its tail moved on by one. */
  lemma KeptAtStep(pieces: seq<string>, keep: string -> bool)
    requires pieces != []
    ensures KeptAt(pieces, keep) == (if keep(pieces[0]) then {0} else {}) + Shift(KeptAt(pieces[1..], keep))
    ensures 0 !in Shift(KeptAt(pieces[1..], keep))
  {
    var rest := pieces[1..];
    forall i: nat | i in KeptAt(pieces, keep) && i > 0
      ensures i in Shift(KeptAt(rest, keep))
    {
      assert rest[i - 1] == pieces[i];
      assert i - 1 in KeptAt(rest, keep);
    }
  }

  /** A filter keeps as many pieces as there are positions it accepts. */
  lemma {:induction false} FilterCountsKept(pieces: seq<string>, keep: string -> bool)
    ensures |Filter(pieces, keep)| == |KeptAt(pieces, keep)|
  {
    if pieces != [] {
      FilterCountsKept(pieces[1..], keep);
      ShiftKeepsSize(KeptAt(pieces[1..], keep));
      KeptAtStep(pieces, keep);
    }
  }

  /** The pieces whose trimmed form is not empty, in order. */
  function NonBlank(pieces: seq<string>): (r: seq<string>)
    ensures |r| <= |pieces|
    ensures forall p :: p in r ==> p in pieces && !Text.IsBlank(p)
    ensures forall i :: 0 <= i < |pieces| && !Text.IsBlank(pieces[i]) ==> pieces[i] in r
  {
    var r := Filter(pieces, Kept);
    forall p | p in r ensures !Text.IsBlank(p) {
      KeptIffNotBlank(p);
    }
    forall i | 0 <= i < |pieces| && !Text.IsBlank(pieces[i]) ensures pieces[i] in r {
      KeptIffNotBlank(pieces[i]);
    }
    r
  }

  /** The filter keeps nothing exactly when every piece is blank. */
  lemma NonBlankEmptyIffAllBlank(pieces: seq<string>)
    ensures NonBlank(pieces) == [] <==> forall p :: p in pieces ==> Text.IsBlank(p)
  {
    FilterEmptyIffNoneKept(pieces, Kept);
    forall p | p in pieces ensures Kept(p) <==> !Text.IsBlank(p) {
      KeptIffNotBlank(p);
    }
  }

  /** The positions of the segments holding a character other than white space. */
  function VisibleSegments(pieces: seq<string>): set<nat> {
    set i: nat | i < |pieces| && !Text.IsBlank(pieces[i])
  }

  /** The blank filter keeps one piece per visible segment. */
  lemma NonBlankCountsVisible(pieces: seq<string>)
    ensures |NonBlank(pieces)| == |VisibleSegments(pieces)|
  {
    FilterCountsKept(pieces, Kept);
    forall i: nat | i < |pieces| ensures Kept(pieces[i]) <==> !Text.IsBlank(pieces[i]) {
      KeptIffNotBlank(pieces[i]);
    }
    assert KeptAt(pieces, Kept) == VisibleSegments(pieces);
  }

  /** `content.split(/[.!?]+/).filter(s => s.trim().length > 0).length`: the
      number of terminator-separated segments that hold a character other
      than white space. */
  function SentenceCount(content: string): (n: nat)
    ensures n == |VisibleSegments(Text.Split(content, Text.Terminator))|
  {
    NonBlankCountsVisible(Text.Split(content, Text.Terminator));
    |NonBlank(Text.Split(content, Text.Terminator))|
  }

  /** `Math.round(n / d)` for a positive `d`: the nearest integer, halves rounded up. */
  function RoundDiv(n: nat, d: nat): (r: nat)
    requires d > 0
    ensures 2 * n - d < 2 * r * d <= 2 * n + d
  {
    var q := (2 * n + d) / (2 * d);
    assert (2 * n + d) == q * (2 * d) + (2 * n + d) % (2 * d);
    q
  }

  /** The entries of `words` occurring in `text`, in list order. */
  function Found(words: seq<string>, text: string): (r: seq<string>)
    ensures |r| <= |words|
    ensures forall w :: w in r <==> w in words && Text.Contains(text, w)
    ensures Distinct(words) ==> Distinct(r)
  {
    if words == [] then []
    else
      var rest := Found(words[1..], text);
      assert forall w :: w in words <==> w == words[0] || w in words[1..];
      if Text.Contains(text, words[0]) then [words[0]] + rest else rest
  }

  /** No entry appears twice. */
  predicate Distinct(s: seq<string>) {
    forall i, j :: 0 <= i < j < |s| ==> s[i] != s[j]
  }

  /** `words.filter(word => text.includes(word)).length`: zero exactly when
      no listed word occurs in the text. */
  function KeywordCount(words: seq<string>, text: string): (n: nat)
    ensures n <= |words|
    ensures n == 0 <==> forall w :: w in words ==> !Text.Contains(text, w)
  {
    var found := Found(words, text);
    assert found == [] <==> forall w :: w in words ==> !Text.Contains(text, w) by {
      if found != [] {
        assert found[0] in found;
      }
    }
    |found|
  }

  /** Every metric the route reports, computed from the accepted content. */
  function Measure(content: string): (m: Metrics)
    ensures m.positiveCount <= 16 && m.negativeCount <= 15 && m.reflectiveCount <= 10
  {
    var words := WordCount(content);
    var sentences := SentenceCount(content);
    var lower := Text.ToLower(content);
    Metrics(words, sentences, RoundDiv(words, if sentences >= 1 then sentences else 1),
            KeywordCount(PositiveWords, lower), KeywordCount(NegativeWords, lower),
            KeywordCount(ReflectiveWords, lower))
  }

  /** The report's paragraphs before the suggestions. */
  datatype Section =
    | Tone(tone: Label, keywordCount: Option<nat>)
    | DeepReflection(reflectiveCount: nat)
    | Detailed(wordCount: nat)
    | Brief
    | ComplexThoughts

  /** A paragraph's place in the report: tone, reflection, length, complexity. */
  function Rank(s: Section): nat {
    match s
    case Tone(_, _) => 0
    case DeepReflection(_) => 1
    case Detailed(_) => 2
    case Brief => 2
    case ComplexThoughts => 3
  }

  /** Each paragraph comes strictly after the ones of lower rank: report order, no repeats. */
  predicate RankOrdered(s: seq<Section>) {
    forall i, j :: 0 <= i < j < |s| ==> Rank(s[i]) < Rank(s[j])
  }

  /** A paragraph the metrics `m` can call for after the tone paragraph. */
  predicate Remark(m: Metrics, s: Section) {
    s == DeepReflection(m.reflectiveCount) || s == Detailed(m.wordCount) || s == Brief || s == ComplexThoughts
  }

  /** The paragraphs after the tone paragraph, in report order. */
  function Remarks(m: Metrics): (r: seq<Section>)
    ensures DeepReflection(m.reflectiveCount) in r <==> m.reflectiveCount >= 3
    ensures Detailed(m.wordCount) in r <==> m.wordCount > 200
    ensures Brief in r <==> m.wordCount < 50
    ensures ComplexThoughts in r <==> m.avgWordsPerSentence > 20
    ensures forall i :: 0 <= i < |r| ==> Remark(m, r[i])
    ensures RankOrdered(r)
  {
    var reflection := if m.reflectiveCount >= 3 then [DeepReflection(m.reflectiveCount)] else [];
    var length := if m.wordCount > 200 then [Detailed(m.wordCount)] else if m.wordCount < 50 then [Brief] else [];
    var complexity := if m.avgWordsPerSentence > 20 then [ComplexThoughts] else [];
    var r := reflection + length + complexity;
    assert forall s :: s in r <==> s in reflection || s in length || s in complexity;
    r
  }

  /** The opening paragraph: the label's tone, quoting the keyword count when
      a positive entry has more than two positive words or a negative entry
      more than two negative words. */
  function ToneParagraph(lab: Label, m: Metrics): (t: Section)
    ensures t.Tone? && t.tone == lab
    ensures t.keywordCount.Some? <==>
      (lab == Positive && m.positiveCount > 2) || (lab == Negative && m.negativeCount > 2)
    ensures t.keywordCount.Some? ==>
      t.keywordCount.value == if lab == Positive then m.positiveCount else m.negativeCount
  {
    var toneCount :=
      if lab == Positive && m.positiveCount > 2 then Some(m.positiveCount)
      else if lab == Negative && m.negativeCount > 2 then Some(m.negativeCount)
      else None;
    Tone(lab, toneCount)
  }

  /** Putting a tone paragraph before rank-ordered later paragraphs keeps the
      rank order, and adds no later paragraph. */
  lemma PrependTone(t: Section, rest: seq<Section>, m: Metrics)
    requires t.Tone? && forall i :: 0 <= i < |rest| ==> Remark(m, rest[i])
    requires RankOrdered(rest)
    ensures forall i :: 1 <= i < |[t] + rest| ==> Remark(m, ([t] + rest)[i])
    ensures forall x: Section :: !x.Tone? ==> (x in [t] + rest <==> x in rest)
    ensures RankOrdered([t] + rest)
  {
    var r := [t] + rest;
    forall i, j | 0 <= i < j < |r|
      ensures Rank(r[i]) < Rank(r[j])
    {
      assert r[j] == rest[j - 1];
      if i > 0 {
        assert r[i] == rest[i - 1];
      }
    }
  }

  /** The paragraphs the metrics and the label call for, in report order. */
  function Sections(lab: Label, m: Metrics): (r: seq<Section>)
    ensures |r| >= 1 && r[0] == ToneParagraph(lab, m)
    ensures DeepReflection(m.reflectiveCount) in r <==> m.reflectiveCount >= 3
    ensures Detailed(m.wordCount) in r <==> m.wordCount > 200
    ensures Brief in r <==> m.wordCount < 50
    ensures ComplexThoughts in r <==> m.avgWordsPerSentence > 20
    ensures forall i :: 1 <= i < |r| ==> Remark(m, r[i])
    ensures RankOrdered(r)
  {
    var t := ToneParagraph(lab, m);
    var rest := Remarks(m);
    PrependTone(t, rest, m);
    [t] + rest
  }

  /** The emoji that open the paragraphs, the suggestions header and its bullets. */
  const Sparkles: string := "\U{2728}"
  const BlueHeart: string := "\U{1F499}"
  const GlowingStar: string := "\U{1F31F}"
  const Brain: string := "\U{1F9E0}"
  const Memo: string := "\U{1F4DD}"
  const ThoughtBalloon: string := "\U{1F4AD}"
  const DirectHit: string := "\U{1F3AF}"
  const BulletMark: string := "\U{2022}"

  /** The emoji a paragraph opens with. */
  function Emoji(s: Section): (e: string)
    ensures |e| == 1 && !Text.IsWhitespace(e[0])
  {
    match s
    case Tone(Positive, _) => Sparkles
    case Tone(Negative, _) => BlueHeart
    case Tone(Neutral, _) => GlowingStar
    case DeepReflection(_) => Brain
    case Detailed(_) => Memo
    case Brief => Memo
    case ComplexThoughts => ThoughtBalloon
  }

  /** The blank line that ends every paragraph. */
  const ParagraphBreak: string := "\n\n"

  /** A paragraph's message after its emoji, ending in a blank line. */
  function Message(s: Section): (m: string)
    ensures |m| >= 2 && m[|m| - 2..] == ParagraphBreak
  {
    MessageText(s) + ParagraphBreak
  }

  /** A paragraph's message before its closing blank line. */
  function MessageText(s: Section): string {
    match s
    case Tone(Positive, count) =>
      " Your entry reflects a positive emotional state. "
      + (if count.Some? then "You used " + Text.NatToString(count.value) + " uplifting words, showing optimism and gratitude. " else "")
      + "This suggests you're in a good mental space or processing experiences constructively."
    case Tone(Negative, count) =>
      " Your entry shows you're processing some difficult emotions. "
      + (if count.Some? then "The presence of " + Text.NatToString(count.value) + " challenging emotion words indicates you may be going through a tough time. " else "")
      + "Remember, acknowledging these feelings is an important step in healing."
    case Tone(Neutral, _) =>
      " Your entry shows balanced emotional expression. "
      + "You're exploring your feelings with a measured perspective."
    case DeepReflection(n) =>
      " Deep Reflection Detected: You used " + Text.NatToString(n)
      + " reflective words, showing strong self-awareness and introspection. This kind of thoughtful examination can lead to personal growth."
    case Detailed(n) =>
      " Detailed Expression: Your " + Text.NatToString(n)
      + "-word entry shows you're taking time to process your thoughts thoroughly. Long-form journaling can be very therapeutic."
    case Brief =>
      " Brief but meaningful. Sometimes the most powerful insights come in few words."
    case ComplexThoughts =>
      " Complex Thoughts: Your longer sentences suggest you're working through nuanced or interconnected ideas."
  }

  /** A paragraph's text: its emoji, then its message. */
  function SectionText(s: Section): (t: string)
    ensures |t| > 2 && t[0] == Emoji(s)[0] && t[|t| - 2..] == ParagraphBreak
  {
    Emoji(s) + Message(s)
  }

  /** The paragraphs' texts one after another. */
  function Render(sections: seq<Section>): (t: string)
    ensures t == "" <==> sections == []
    ensures |sections| > 0 ==> |t| > 2 && !Text.IsWhitespace(t[0]) && t[|t| - 2..] == ParagraphBreak
  {
    if sections == [] then "" else SectionText(sections[0]) + Render(sections[1..])
  }

  const SuggestionsHeader: string := DirectHit + " Suggestions:\n"

  /** The suggestions for a negative, a positive and a neutral entry. */
  const NegativeSuggestions: seq<string> := [
    "Consider what small action you could take today to improve your situation",
    "Practice self-compassion - be kind to yourself as you would to a friend",
    "If feelings persist, consider reaching out to a mental health professional"]

  const PositiveSuggestions: seq<string> := [
    "Take a moment to savor these positive feelings",
    "Consider what contributed to this positive state",
    "Think about how you can maintain this momentum"]

  const NeutralSuggestions: seq<string> := [
    "Continue exploring your thoughts through regular journaling",
    "Notice patterns in your entries over time",
    "Consider what small changes might shift your emotional balance"]

  /** The three suggestions for a label. */
  function Suggestions(lab: Label): (r: seq<string>)
    ensures |r| == 3
  {
    match lab
    case Negative => NegativeSuggestions
    case Positive => PositiveSuggestions
    case Neutral => NeutralSuggestions
  }

  /** Every last suggestion ends in a letter, so nothing after it is trimmed away. */
  lemma LastSuggestionEndsInLetter(lab: Label)
    ensures var last := Suggestions(lab)[2]; |last| > 0 && 'a' <= last[|last| - 1] <= 'z'
  {
  }

  /** One suggestion line, without its line break. */
  function Bullet(s: string): (b: string)
    ensures |b| > |s| && (|s| > 0 ==> b[|b| - 1] == s[|s| - 1])
  {
    BulletMark + " " + s
  }

  /** The header and the three bullet lines, the last without its line break. */
  function SuggestionsBlock(lab: Label): (t: string)
    ensures |t| > 0 && !Text.IsWhitespace(t[0]) && !Text.IsWhitespace(t[|t| - 1])
  {
    var b := Suggestions(lab);
    LastSuggestionEndsInLetter(lab);
    SuggestionsHeader + Bullet(b[0]) + "\n" + Bullet(b[1]) + "\n" + Bullet(b[2])
  }

  /** `POST /api/analyze-journal`. */
  function Analyze(req: Request, sentenceScores: seq<real>): (r: Response)
    ensures r.ServerError? <==> req.UnreadableBody?
    ensures r.BadRequest? <==> req.Json? && !Acceptable(req.content)
    ensures r.BadRequest? ==> r.error == ContentTooShort
    ensures r.Analysis? ==>
      && var content := req.content.value;
         var s := AnalyzeSentiment(content, sentenceScores);
         && r.sentiment == s.sentiment && r.mood == s.mood
         && r.metrics == Measure(content)
         && r.analysis == Text.Trim(Render(Sections(s.sentiment, r.metrics)) + SuggestionsBlock(s.sentiment) + "\n")
  {
    match req
    case UnreadableBody => ServerError
    case Json(content) =>
      if !Acceptable(content) then BadRequest(ContentTooShort)
      else
        var s := AnalyzeSentiment(content.value, sentenceScores);
        var m := Measure(content.value);
        var body := Render(Sections(s.sentiment, m)) + SuggestionsBlock(s.sentiment) + "\n";
        Analysis(Text.Trim(body), s.sentiment, s.mood, m)
  }

  /** Trimming the assembled text followed by a line break removes only that line break. */
  lemma TrimRemovesOnlyFinalBreak(sections: seq<Section>, lab: Label)
    requires |sections| > 0
    ensures Text.Trim(Render(sections) + SuggestionsBlock(lab) + "\n") == Render(sections) + SuggestionsBlock(lab)
  {
    Text.TrimJoinedDropsFinalNewline(Render(sections), SuggestionsBlock(lab));
  }

  /** The final `trim()` removes only the last line break: the report is every
      paragraph in full followed by the header and the three suggestions. */
  lemma ReportIsSectionsThenSuggestions(req: Request, sentenceScores: seq<real>)
    ensures var r := Analyze(req, sentenceScores);
            r.Analysis? ==> r.analysis == Render(Sections(r.sentiment, r.metrics)) + SuggestionsBlock(r.sentiment)
  {
    var r := Analyze(req, sentenceScores);
    if r.Analysis? {
      TrimRemovesOnlyFinalBreak(Sections(r.sentiment, r.metrics), r.sentiment);
    }
  }

  /** Accepted content has at least one word, and the word count is the number
      of white-space-separated tokens of the trimmed content. */
  lemma WordCountCountsTokens(content: string)
    requires Acceptable(Some(content))
    ensures WordCount(content) == Text.Runs(Text.Trim(content), Text.Whitespace, false) >= 1
  {
    assert Text.Utf16Length(Text.Trim(content)) >= MinContentLength;
    Text.SplitTrimCountsTokens(content);
  }

  /** No sentence is counted exactly when every character is white space or
      one of `.`, `!`, `?`. */
  lemma NoSentenceIffOnlyPunctuation(content: string)
    ensures SentenceCount(content) == 0 <==>
      forall i :: 0 <= i < |content| ==> Text.IsWhitespace(content[i]) || Text.IsSeparator(Text.Terminator, content[i])
  {
    var pieces := Text.Split(content, Text.Terminator);
    Text.ConcatSplit(content, Text.Terminator);
    NonBlankEmptyIffAllBlank(pieces);
    Text.BlankConcat(pieces);
    Text.BlankStrip(content, Text.Terminator);
  }

  /** With no sentence the average falls back to dividing by one, so it is the word count. */
  lemma NoSentenceAverageIsWordCount(content: string)
    requires SentenceCount(content) == 0
    ensures Measure(content).avgWordsPerSentence == WordCount(content)
  {
  }

  /** `RoundDiv` is the only integer within half a step of `n / d`. */
  lemma RoundDivIsNearest(n: nat, d: nat, k: int)
    requires d > 0
    requires 2 * n - d < 2 * k * d <= 2 * n + d
    ensures k == RoundDiv(n, d)
  {
    var r := RoundDiv(n, d);
    if k > r {
      MulMono(r + 1, k, 2 * d);
    } else if k < r {
      MulMono(k + 1, r, 2 * d);
    }
  }

  lemma MulMono(a: int, b: int, d: nat)
    requires a <= b
    ensures a * d <= b * d
  {
    assert b * d - a * d == (b - a) * d;
  }

  /** The entries of a list, as a set. */
  function Entries(s: seq<string>): set<string> {
    set w | w in s
  }

  /** A list without repeats has as many entries as elements. */
  lemma {:induction false} DistinctLength(s: seq<string>)
    requires Distinct(s)
    ensures |Entries(s)| == |s|
  {
    if s != [] {
      var init := s[..|s| - 1];
      DistinctLength(init);
      assert Entries(s) == Entries(init) + {s[|s| - 1]};
      assert s[|s| - 1] !in Entries(init);
    }
  }

  /** The distinct list entries that occur in the text. */
  function Hits(words: seq<string>, text: string): set<string> {
    set w | w in words && Text.Contains(text, w)
  }

  /** A keyword count is the number of distinct list entries found in the
      text, however often each occurs. */
  lemma KeywordCountCountsDistinctHits(words: seq<string>, text: string)
    requires Distinct(words)
    ensures KeywordCount(words, text) == |Hits(words, text)|
  {
    var found := Found(words, text);
    DistinctLength(found);
    assert Entries(found) == Hits(words, text);
  }

  /** The metrics echoed for accepted content are its white-space token count,
      its number of visible sentence segments, the word count per sentence
      rounded to the nearest integer (dividing by one when there is no
      sentence), and the numbers of distinct keywords of each list found in
      the lower-cased content. */
  lemma MetricsAreTheCounts(content: string)
    requires Acceptable(Some(content))
    ensures var m := Measure(content);
            var d := if m.sentenceCount >= 1 then m.sentenceCount else 1;
            var lower := Text.ToLower(content);
            && m.wordCount == Text.Runs(Text.Trim(content), Text.Whitespace, false)
            && m.sentenceCount == |VisibleSegments(Text.Split(content, Text.Terminator))|
            && 2 * m.wordCount - d < 2 * m.avgWordsPerSentence * d <= 2 * m.wordCount + d
            && m.positiveCount == |Hits(PositiveWords, lower)|
            && m.negativeCount == |Hits(NegativeWords, lower)|
            && m.reflectiveCount == |Hits(ReflectiveWords, lower)|
  {
    var lower := Text.ToLower(content);
    WordCountCountsTokens(content);
    KeywordListsAreDistinct();
    KeywordCountCountsDistinctHits(PositiveWords, lower);
    KeywordCountCountsDistinctHits(NegativeWords, lower);
    KeywordCountCountsDistinctHits(ReflectiveWords, lower);
  }

  /** No positive keyword is listed twice. */
  lemma PositiveWordsAreDistinct()
    ensures Distinct(PositiveWords)
  {
  }

  /** No negative keyword is listed twice. */
  lemma NegativeWordsAreDistinct()
    ensures Distinct(NegativeWords)
  {
  }

  /** The three keyword lists hold no entry twice. */
  lemma KeywordListsAreDistinct()
    ensures Distinct(PositiveWords) && Distinct(NegativeWords) && Distinct(ReflectiveWords)
  {
    PositiveWordsAreDistinct();
    NegativeWordsAreDistinct();
  }

  /** A keyword contained in another counts whenever the longer one does:
      "hopeless" adds to both the negative and the positive count. */
  lemma HopelessAlsoCountsAsHope(text: string)
    requires Text.Contains(text, "hopeless")
    ensures "hopeless" in Found(NegativeWords, text)
    ensures "hope" in Found(PositiveWords, text)
  {
    Text.ContainsIffOccurs(text, "hopeless");
    var i :| Text.OccursAt(text, "hopeless", i);
    assert text[i..i + 4] == text[i..i + 8][..4] == "hope";
    assert Text.OccursAt(text, "hope", i);
    Text.ContainsIffOccurs(text, "hope");
    assert NegativeWords[6] == "hopeless" && PositiveWords[10] == "hope";
  }
}

=== FILE: encryption.dfy ===
/**
 * The client-side journal encryption engine: one browser-storage slot holding
 * a JSON Web Key, get-or-create / has / clear / export / import on that slot,
 * and AES-GCM encryption of text into `base64(IV || ciphertext)` blobs.
 *
 * Web Crypto, `TextEncoder`/`TextDecoder`, `btoa`/`atob` and `JSON.parse`
 * are not implemented: they are the fields of a `Primitives` record, and the
 * properties the engine relies on are the laws of `Lawful`. Randomness (the
 * generated key, the drawn IV) enters as parameters.
 */
module Encryption {
  import opened Wrappers

  /** An element of a `Uint8Array`. */
  newtype Byte = b: int | 0 <= b < 256
  type Bytes = seq<Byte>

  /** The storage slot name, `ENCRYPTION_KEY_NAME`. */
  const KeyName: string := "mindease_journal_encryption_key"
  /** AES-GCM key size in bits, `KEY_LENGTH`. */
  const KeyLengthBits: nat := 256
  /** Bytes of IV drawn per encryption: the 96-bit IV of NIST SP 800-38D, section 5.2.1.1. */
  const IvLength: nat := 12
  /** Bytes of authentication tag Web Crypto appends by default (128 bits). */
  const TagLength: nat := 16

  const DecryptFailed: string := "Failed to decrypt data. The encryption key may have changed."
  const NoKeyFound: string := "No encryption key found"
  const InvalidKeyFormat: string := "Invalid encryption key format"

  /** An initialisation vector as `crypto.getRandomValues(new Uint8Array(12))` yields it. */
  type Iv = b: Bytes | |b| == 12 witness [0, 0, 0, 0, 0, 0, 0, 0, 0, 0, 0, 0]

  /** An AES-GCM `CryptoKey`, identified by its secret material. */
  datatype CryptoKey = CryptoKey(material: Bytes)

  /** The foreign operations the engine calls. */
  datatype Primitives = Primitives(
    /** `JSON.parse(s)` succeeds. */
    isJson: string -> bool,
    /** `importKey('jwk', JSON.parse(s), ...)`: `None` when either step throws. */
    importJwk: string -> Option<CryptoKey>,
    /** `JSON.stringify(await exportKey('jwk', k))`. */
    exportJwk: CryptoKey -> string,
    /** AES-GCM encryption under (key, IV): ciphertext followed by the tag. */
    seal: (CryptoKey, Bytes, Bytes) -> Bytes,
    /** AES-GCM decryption: `None` when the tag does not authenticate. */
    open: (CryptoKey, Bytes, Bytes) -> Option<Bytes>,
    /** `new TextEncoder().encode(s)`. */
    encodeUtf8: string -> Bytes,
    /** `new TextDecoder().decode(b)`: never throws, malformed input is replaced,
        and a leading byte order mark is dropped (`ignoreBOM` is false by default). */
    decodeUtf8: Bytes -> string,
    /** `btoa(String.fromCharCode(...b))`, RFC 4648 section 4. */
    encodeBase64: Bytes -> string,
    /** `Uint8Array.from(atob(s), ...)`: `None` when `atob` throws. */
    decodeBase64: string -> Option<Bytes>)

  /** The laws of the foreign operations that the engine's behaviour depends on. */
  ghost predicate Lawful(p: Primitives) {
    // importing goes through JSON.parse first, and the empty string is not JSON
    && (forall s :: p.importJwk(s).Some? ==> p.isJson(s))
    && !p.isJson("")
    // an exported key imports back to itself
    && (forall k :: p.importJwk(p.exportJwk(k)) == Some(k))
    // AES-GCM opens what it sealed under the same key and IV, and adds a 16-byte tag
    && (forall k, iv, m :: p.open(k, iv, p.seal(k, iv, m)) == Some(m))
    && (forall k, iv, m :: |p.seal(k, iv, m)| == |m| + TagLength)
    // decryption of data shorter than the tag fails with an OperationError
    && (forall k, iv, c :: |c| < TagLength ==> p.open(k, iv, c).None?)
    // TextDecoder inverts TextEncoder up to a leading byte order mark, atob inverts btoa
    && (forall s :: p.decodeUtf8(p.encodeUtf8(s)) == StripBom(s))
    && (forall b :: p.decodeBase64(p.encodeBase64(b)) == Some(b))
  }

  /** The byte order mark, U+FEFF. */
  const Bom: char := '\U{FEFF}'

  /** What decoding the UTF-8 encoding of `s` gives back: `s` without one
      leading byte order mark, as the WHATWG Encoding Standard's UTF-8 decode
      (BOM sniffing) and `TextDecoder` with `ignoreBOM` false prescribe. At most
      that one character is lost, and only a text that starts with it loses it. */
  function StripBom(s: string): (r: string)
    ensures r == s || [Bom] + r == s
    ensures r == s <==> s == [] || s[0] != Bom
  {
    if |s| > 0 && s[0] == Bom then s[1..] else s
  }

  /** `localStorage`: string values under string names. */
  type Store = map<string, string>

  /** `localStorage.getItem(ENCRYPTION_KEY_NAME)`. */
  function Stored(store: Store): Option<string> {
    if KeyName in store then Some(store[KeyName]) else None
  }

  /** Every storage entry other than the key slot is the same in both stores. */
  predicate OthersUnchanged(before: Store, after: Store) {
    before - {KeyName} == after - {KeyName}
  }

  /** The key `getOrCreateEncryptionKey` would accept from the slot: present,
      non-empty (an empty string is falsy), parseable and importable. */
  function StoredKey(p: Primitives, store: Store): (r: Option<CryptoKey>)
    ensures r.Some? ==> Stored(store).Some? && Stored(store).value != "" && p.isJson(Stored(store).value)
  {
    match Stored(store)
    case None => None
    case Some(s) => if s != "" && p.isJson(s) then p.importJwk(s) else None
  }

  /** A key together with the storage it leaves behind. */
  datatype KeyStep = KeyStep(key: CryptoKey, store: Store)

  /** `generateAndStoreKey`: the newly generated key `newKey` is exported as
      a JWK and written to the slot. */
  function GenerateAndStoreKey(p: Primitives, newKey: CryptoKey, store: Store): (r: KeyStep)
    ensures r.key == newKey && Stored(r.store) == Some(p.exportJwk(newKey))
    ensures OthersUnchanged(store, r.store)
    ensures Lawful(p) ==> StoredKey(p, r.store) == Some(newKey)
  {
    KeyStep(newKey, store[KeyName := p.exportJwk(newKey)])
  }

  /** `getOrCreateEncryptionKey`: the stored key when it parses and imports,
      otherwise (absent, empty, not JSON, not a key) a newly generated one that replaces it. */
  function GetOrCreateEncryptionKey(p: Primitives, newKey: CryptoKey, store: Store): (r: KeyStep)
    ensures OthersUnchanged(store, r.store)
    ensures StoredKey(p, store).Some? ==> r == KeyStep(StoredKey(p, store).value, store)
    ensures StoredKey(p, store).None? ==> r.key == newKey && Stored(r.store) == Some(p.exportJwk(newKey))
    ensures Lawful(p) ==> StoredKey(p, r.store) == Some(r.key)
  {
    var stored := Stored(store);
    if stored.Some? && stored.value != "" then
      if p.isJson(stored.value) then
        match p.importJwk(stored.value)
        case Some(key) => KeyStep(key, store)
        case None => GenerateAndStoreKey(p, newKey, store)
      else
        GenerateAndStoreKey(p, newKey, store)
    else
      GenerateAndStoreKey(p, newKey, store)
  }

  /** `hasEncryptionKey`: the slot is not null (an empty string counts as present). */
  function HasEncryptionKey(store: Store): (r: bool)
    ensures r <==> Stored(store).Some?
  {
    KeyName in store
  }

  /** `clearEncryptionKey`. */
  function ClearEncryptionKey(store: Store): (r: Store)
    ensures !HasEncryptionKey(r)
    ensures OthersUnchanged(store, r)
  {
    store - {KeyName}
  }

  /** `exportEncryptionKey`: the stored string verbatim; an absent or empty slot fails. */
  function ExportEncryptionKey(store: Store): (r: Result<string, string>)
    ensures r.Success? <==> HasEncryptionKey(store) && Stored(store).value != ""
    ensures r.Success? ==> Stored(store) == Some(r.value)
    ensures r.Failure? ==> r.error == NoKeyFound
  {
    var stored := Stored(store);
    if stored.None? || stored.value == "" then Failure(NoKeyFound) else Success(stored.value)
  }

  /** `importEncryptionKey`: any string that parses as JSON is written to the
      slot as it is; anything else is refused and nothing is written. */
  function ImportEncryptionKey(p: Primitives, keyData: string, store: Store): (r: Result<Store, string>)
    ensures r.Success? <==> p.isJson(keyData)
    ensures r.Success? ==> Stored(r.value) == Some(keyData) && OthersUnchanged(store, r.value)
    ensures r.Failure? ==> r.error == InvalidKeyFormat
  {
    if p.isJson(keyData) then Success(store[KeyName := keyData]) else Failure(InvalidKeyFormat)
  }

  /** The byte layout of a blob: the IV followed by the sealed data. */
  function Frame(iv: Iv, sealed: Bytes): (combined: Bytes)
    ensures |combined| == IvLength + |sealed|
    ensures combined[..IvLength] == iv && combined[IvLength..] == sealed
  {
    iv + sealed
  }

  /** `combined.slice(0, 12)` and `combined.slice(12)`: a shorter input gives
      all of it as the IV and nothing as the sealed data. */
  function Unframe(combined: Bytes): (parts: (Bytes, Bytes))
    ensures parts.0 + parts.1 == combined
    ensures |parts.0| == if |combined| < IvLength then |combined| else IvLength
  {
    var cut := if |combined| < IvLength then |combined| else IvLength;
    (combined[..cut], combined[cut..])
  }

  /** The result of `encryptText`: the blob and the storage afterwards. */
  datatype Encrypted = Encrypted(blob: string, store: Store)

  /** `encryptText`: seal the UTF-8 bytes under the slot's key with the drawn
      IV `iv`, and base64-encode `IV || sealed`. */
  function EncryptText(p: Primitives, newKey: CryptoKey, iv: Iv, plaintext: string, store: Store): (r: Encrypted)
    ensures r.store == GetOrCreateEncryptionKey(p, newKey, store).store
    ensures Lawful(p) ==>
      && StoredKey(p, r.store).Some?
      && var k := StoredKey(p, r.store).value;
         var data := p.encodeUtf8(plaintext);
         p.decodeBase64(r.blob) == Some(Frame(iv, p.seal(k, iv, data)))
         && |Frame(iv, p.seal(k, iv, data))| == IvLength + |data| + TagLength
  {
    var step := GetOrCreateEncryptionKey(p, newKey, store);
    var data := p.encodeUtf8(plaintext);
    var sealed := p.seal(step.key, iv, data);
    Encrypted(p.encodeBase64(Frame(iv, sealed)), step.store)
  }

  /** Base64-decode, split at the IV, and authenticate-and-decrypt under `key`. */
  function Opened(p: Primitives, key: CryptoKey, blob: string): Option<Bytes> {
    match p.decodeBase64(blob)
    case None => None
    case Some(combined) =>
      var (iv, sealed) := Unframe(combined);
      p.open(key, iv, sealed)
  }

  /** The result of `decryptText`: the plaintext or the error, and the storage afterwards. */
  datatype Decrypted = Decrypted(text: Result<string, string>, store: Store)

  /** `decryptText`: every failure (bad base64, failed authentication) becomes
      the one `DecryptFailed` error; the key lookup's side effect stays. */
  function DecryptText(p: Primitives, newKey: CryptoKey, blob: string, store: Store): (r: Decrypted)
    ensures r.store == GetOrCreateEncryptionKey(p, newKey, store).store
    ensures r.text.Failure? ==> r.text.error == DecryptFailed
    ensures Lawful(p) ==>
      && StoredKey(p, r.store).Some?
      && var authentic := Opened(p, StoredKey(p, r.store).value, blob);
         (r.text.Success? <==> authentic.Some?)
         && (r.text.Success? ==> r.text.value == p.decodeUtf8(authentic.value))
  {
    var step := GetOrCreateEncryptionKey(p, newKey, store);
    var text := match Opened(p, step.key, blob)
      case None => Failure(DecryptFailed)
      case Some(plain) => Success(p.decodeUtf8(plain));
    Decrypted(text, step.store)
  }

  /** A blob that is not base64, or decodes to fewer bytes than an IV and a
      tag, fails to decrypt with the one wrapped error; the key lookup's
      effect on the storage still happens. */
  lemma ShortBlobFails(p: Primitives, newKey: CryptoKey, blob: string, store: Store)
    requires Lawful(p)
    requires p.decodeBase64(blob).None? || |p.decodeBase64(blob).value| < IvLength + TagLength
    ensures DecryptText(p, newKey, blob, store)
            == Decrypted(Failure(DecryptFailed), GetOrCreateEncryptionKey(p, newKey, store).store)
  {
    if p.decodeBase64(blob).Some? {
      var (iv, sealed) := Unframe(p.decodeBase64(blob).value);
      assert |sealed| < TagLength;
    }
  }

  // ---------------------------------------------------------------------------
  // Properties of the key slot

  /** On an empty slot a key is generated and stored, so the slot is no longer empty. */
  lemma GetOrCreateOnEmptySlot(p: Primitives, newKey: CryptoKey, store: Store)
    requires !HasEncryptionKey(store)
    ensures var r := GetOrCreateEncryptionKey(p, newKey, store);
            r.key == newKey && HasEncryptionKey(r.store)
            && (Lawful(p) ==> StoredKey(p, r.store) == Some(newKey))
  {
  }

  /** Two consecutive lookups return the same key and the second writes nothing,
      whatever key the second one would have generated. */
  lemma GetOrCreateIsStable(p: Primitives, newKey1: CryptoKey, newKey2: CryptoKey, store: Store)
    requires Lawful(p)
    ensures var r1 := GetOrCreateEncryptionKey(p, newKey1, store);
            GetOrCreateEncryptionKey(p, newKey2, r1.store) == r1
  {
  }

  /** A slot holding a string that is not JSON, or JSON that is not a key, is
      overwritten with a freshly generated key. */
  lemma GetOrCreateReplacesMalformed(p: Primitives, newKey: CryptoKey, store: Store)
    requires HasEncryptionKey(store)
    requires !p.isJson(Stored(store).value) || p.importJwk(Stored(store).value).None?
    ensures var r := GetOrCreateEncryptionKey(p, newKey, store);
            r.key == newKey && Stored(r.store) == Some(p.exportJwk(newKey)) && OthersUnchanged(store, r.store)
  {
  }

  /** Re-importing an exported key leaves the storage as it was: a JSON slot is
      rewritten with its own value, anything else is refused without a write. */
  lemma ImportOfExportIsNoOp(p: Primitives, store: Store)
    requires ExportEncryptionKey(store).Success?
    ensures var backup := ExportEncryptionKey(store).value;
            var r := ImportEncryptionKey(p, backup, store);
            r.Success? ==> r.value == store
  {
    var backup := ExportEncryptionKey(store).value;
    assert store[KeyName := backup] == store;
  }

  /** JSON that is not a key is accepted by `importEncryptionKey`, and the next
      key lookup discards it in favour of a newly generated key. */
  lemma ImportedNonKeyIsReplaced(p: Primitives, keyData: string, newKey: CryptoKey, store: Store)
    requires p.isJson(keyData) && keyData != "" && p.importJwk(keyData).None?
    ensures ImportEncryptionKey(p, keyData, store).Success?
    ensures var r := GetOrCreateEncryptionKey(p, newKey, ImportEncryptionKey(p, keyData, store).value);
            r.key == newKey && Stored(r.store) == Some(p.exportJwk(newKey))
  {
  }

  // ---------------------------------------------------------------------------
  // Properties of the blob format

  /** Splitting a framed blob at the IV length recovers the IV and the sealed data. */
  lemma UnframeFrame(iv: Iv, sealed: Bytes)
    ensures Unframe(Frame(iv, sealed)) == (iv, sealed)
  {
  }

  /** Any byte string of at least IV length is the framing of its own split. */
  lemma FrameUnframe(combined: Bytes)
    requires |combined| >= IvLength
    ensures var (iv, sealed) := Unframe(combined); Frame(iv, sealed) == combined
  {
  }

  /** Decrypting a blob with the storage the encryption left behind gives back
      the plaintext, less a leading byte order mark, and writes nothing more. */
  lemma EncryptDecryptRoundTrip(p: Primitives, newKey1: CryptoKey, newKey2: CryptoKey, iv: Iv, plaintext: string, store: Store)
    requires Lawful(p)
    ensures var e := EncryptText(p, newKey1, iv, plaintext, store);
            DecryptText(p, newKey2, e.blob, e.store) == Decrypted(Success(StripBom(plaintext)), e.store)
  {
    var e := EncryptText(p, newKey1, iv, plaintext, store);
    var k := StoredKey(p, e.store).value;
    var data := p.encodeUtf8(plaintext);
    UnframeFrame(iv, p.seal(k, iv, data));
    assert Opened(p, k, e.blob) == Some(data);
  }

  /** A journal text comes back from a round trip exactly when it does not
      start with a byte order mark; one that does comes back without it. */
  lemma RoundTripIsExactUnlessBom(p: Primitives, newKey1: CryptoKey, newKey2: CryptoKey, iv: Iv, plaintext: string, store: Store)
    requires Lawful(p)
    ensures var e := EncryptText(p, newKey1, iv, plaintext, store);
            var t := DecryptText(p, newKey2, e.blob, e.store).text;
            t.Success? && (t.value == plaintext <==> plaintext == [] || plaintext[0] != Bom)
            && (t.value != plaintext ==> [Bom] + t.value == plaintext)
  {
    EncryptDecryptRoundTrip(p, newKey1, newKey2, iv, plaintext, store);
  }

  /** Two encryptions of the same text with different IVs give different blobs. */
  lemma DistinctIvsGiveDistinctBlobs(p: Primitives, newKey: CryptoKey, iv1: Iv, iv2: Iv, plaintext: string, store: Store)
    requires Lawful(p) && iv1 != iv2
    ensures EncryptText(p, newKey, iv1, plaintext, store).blob != EncryptText(p, newKey, iv2, plaintext, store).blob
  {
    var e1 := EncryptText(p, newKey, iv1, plaintext, store);
    var e2 := EncryptText(p, newKey, iv2, plaintext, store);
    var k := StoredKey(p, e1.store).value;
    var c1 := Frame(iv1, p.seal(k, iv1, p.encodeUtf8(plaintext)));
    var c2 := Frame(iv2, p.seal(k, iv2, p.encodeUtf8(plaintext)));
    assert c1[..IvLength] != c2[..IvLength];
  }

  /** Decrypting with an empty slot generates and stores a key even when the
      blob then fails to decrypt, and a failed decryption yields no text. */
  lemma DecryptOnEmptySlotStoresKey(p: Primitives, newKey: CryptoKey, blob: string, store: Store)
    requires !HasEncryptionKey(store)
    ensures var r := DecryptText(p, newKey, blob, store);
            Stored(r.store) == Some(p.exportJwk(newKey))
            && (Opened(p, newKey, blob).None? ==> r.text == Failure(DecryptFailed))
  {
  }

  /** After the key is cleared, a blob is readable only if the newly generated
      key happens to authenticate it. */
  lemma ClearOrphansBlobs(p: Primitives, newKey1: CryptoKey, newKey2: CryptoKey, iv: Iv, plaintext: string, store: Store)
    requires Lawful(p)
    requires var e := EncryptText(p, newKey1, iv, plaintext, store);
             Opened(p, newKey2, e.blob).None?
    ensures var e := EncryptText(p, newKey1, iv, plaintext, store);
            var r := DecryptText(p, newKey2, e.blob, ClearEncryptionKey(e.store));
            r.text == Failure(DecryptFailed) && StoredKey(p, r.store) == Some(newKey2)
  {
  }
}

=== FILE: encryption_witness.dfy ===
/**
 * A toy instance of the foreign operations that satisfies every law of
 * `Encryption.Lawful`. It is no cipher and no real encoding; it only shows
 * that the laws the engine's proofs assume are consistent, so those proofs
 * are not vacuous.
 */
module EncryptionWitness {
  import opened Wrappers
  import opened Encryption

  /** Every character is a code point below 256. */
  predicate AllLatin1(s: string) {
    forall i :: 0 <= i < |s| ==> s[i] <= '\U{00FF}'
  }

  function CharsOfBytes(b: Bytes): (s: string)
    ensures |s| == |b| && AllLatin1(s)
  {
    seq(|b|, i requires 0 <= i < |b| => (b[i] as int) as char)
  }

  function BytesOfChars(s: string): (b: Bytes)
    requires AllLatin1(s)
    ensures |b| == |s|
  {
    seq(|s|, i requires 0 <= i < |s| => (s[i] as int) as Byte)
  }

  lemma BytesOfCharsOfBytes(b: Bytes)
    ensures BytesOfChars(CharsOfBytes(b)) == b
  {
    var r := BytesOfChars(CharsOfBytes(b));
    forall i | 0 <= i < |b|
      ensures r[i] == b[i]
    {
      assert ((b[i] as int) as char) as int == b[i] as int;
    }
  }

  /** "JSON" is a brace-delimited text, "JWK" a brace-delimited Latin-1 text of the key bytes. */
  predicate IsBraced(s: string) {
    |s| >= 2 && s[0] == '{' && s[|s| - 1] == '}'
  }

  function ExportBraced(k: CryptoKey): string {
    "{" + CharsOfBytes(k.material) + "}"
  }

  function ImportBraced(s: string): Option<CryptoKey> {
    if IsBraced(s) && AllLatin1(s[1..|s| - 1]) then Some(CryptoKey(BytesOfChars(s[1..|s| - 1]))) else None
  }

  /** "Sealing" appends sixteen zero bytes; "opening" checks and strips them. */
  const ZeroTag: Bytes := [0, 0, 0, 0, 0, 0, 0, 0, 0, 0, 0, 0, 0, 0, 0, 0]

  function SealZero(m: Bytes): Bytes {
    m + ZeroTag
  }

  function OpenZero(c: Bytes): Option<Bytes> {
    if |c| >= 16 && c[|c| - 16..] == ZeroTag then Some(c[..|c| - 16]) else None
  }

  /** "UTF-8" writes every code point as three big-endian bytes; decoding
      drops a leading byte order mark as `TextDecoder` does. */
  function CharBytes(c: char): Bytes {
    var v := c as int;
    var q := v / 256;
    [(q / 256) as Byte, (q % 256) as Byte, (v % 256) as Byte]
  }

  function EncodeTriples(s: string): (b: Bytes)
    ensures |b| == 3 * |s|
  {
    if s == [] then [] else CharBytes(s[0]) + EncodeTriples(s[1..])
  }

  function DecodeTriple(b0: Byte, b1: Byte, b2: Byte): char {
    var v := b0 as int * 65536 + b1 as int * 256 + b2 as int;
    if v < 0xD800 || (0xE000 <= v < 0x11_0000) then v as char else '?'
  }

  function DecodeTriples(b: Bytes): string {
    if |b| < 3 then [] else [DecodeTriple(b[0], b[1], b[2])] + DecodeTriples(b[3..])
  }

  lemma DecodeCharBytes(c: char)
    ensures var t := CharBytes(c); DecodeTriple(t[0], t[1], t[2]) == c
  {
    var v := c as int;
    var q := v / 256;
    var hi, mid, lo := q / 256, q % 256, v % 256;
    assert v == q * 256 + lo;
    assert q == hi * 256 + mid;
    assert hi < 256;
    assert hi * 65536 + mid * 256 + lo == v;
  }

  lemma {:induction false} DecodeEncodeTriples(s: string)
    ensures DecodeTriples(EncodeTriples(s)) == s
  {
    if s != [] {
      var b := EncodeTriples(s);
      assert b[3..] == EncodeTriples(s[1..]);
      DecodeCharBytes(s[0]);
      DecodeEncodeTriples(s[1..]);
    }
  }

  /** "Base64" writes every byte as the character with that code. */
  function DecodeLatin1(s: string): Option<Bytes> {
    if AllLatin1(s) then Some(BytesOfChars(s)) else None
  }

  function WitnessPrimitives(): Primitives {
    Primitives(
      s => IsBraced(s),
      s => ImportBraced(s),
      k => ExportBraced(k),
      (k, iv, m) => SealZero(m),
      (k, iv, c) => OpenZero(c),
      s => EncodeTriples(s),
      b => StripBom(DecodeTriples(b)),
      b => CharsOfBytes(b),
      s => DecodeLatin1(s))
  }

  /** The laws assumed of Web Crypto and the encoders can all hold at once. */
  lemma WitnessIsLawful()
    ensures Lawful(WitnessPrimitives())
  {
    var p := WitnessPrimitives();
    forall k: CryptoKey
      ensures p.importJwk(p.exportJwk(k)) == Some(k)
    {
      var s := ExportBraced(k);
      assert s[1..|s| - 1] == CharsOfBytes(k.material);
      BytesOfCharsOfBytes(k.material);
    }
    forall k: CryptoKey, iv: Bytes, m: Bytes
      ensures p.open(k, iv, p.seal(k, iv, m)) == Some(m)
    {
      var c := SealZero(m);
      assert c[|c| - 16..] == ZeroTag && c[..|c| - 16] == m;
    }
    forall k: CryptoKey, iv: Bytes, c: Bytes | |c| < TagLength
      ensures p.open(k, iv, c).None?
    {
    }
    forall s: string
      ensures p.decodeUtf8(p.encodeUtf8(s)) == StripBom(s)
    {
      DecodeEncodeTriples(s);
    }
    forall b: Bytes
      ensures p.decodeBase64(p.encodeBase64(b)) == Some(b)
    {
      BytesOfCharsOfBytes(b);
    }
  }
}

=== FILE: export_route.dfy ===
/**
 * The data export route (`GET /api/user/export`): the caller's profile, every
 * journal of theirs newest first with its fields copied, and two statistics,
 * the number of entries and how often each mood occurs. The users collection
 * is a map from id to user record; `jwt.verify` is the parameter `verify`
 * (`None` when it throws); the export timestamp is the parameter `exportDate`.
 */
module ExportRoute {
  import opened Wrappers
  import opened Sentiment
  import opened JournalSchema
  import opened JournalQuery

  /** The user fields the route selects. */
  datatype User = User(name: string, email: string, createdAt: int)

  datatype Profile = Profile(name: string, email: string, accountCreated: int)

  /** A journal as exported: every stored field except the owner. */
  datatype ExportedJournal = ExportedJournal(
    title: string,
    content: string,
    mood: Option<string>,
    sentiment: Label,
    moodManuallySet: bool,
    createdAt: int,
    updatedAt: Option<int>)

  datatype Statistics = Statistics(totalJournalEntries: nat, moodDistribution: map<string, Tallied>)

  datatype ExportData = ExportData(
    exportDate: string,
    profile: Profile,
    journals: seq<ExportedJournal>,
    statistics: Statistics)

  /** 401, 404, 500, or the export. */
  datatype ExportResponse = ExportUnauthorized | ExportNotFound | ExportServerError | Exported(data: ExportData)

  /** The field mapping of `journals.map`. */
  function ExportOf(j: Journal): ExportedJournal {
    ExportedJournal(j.title, j.content, j.mood, j.sentiment, j.moodManuallySet, j.createdAt, j.updatedAt)
  }

  /** Rebuilds the stored journal of `owner` from its export. */
  function Restore(e: ExportedJournal, owner: UserId): Journal {
    Journal(owner, e.title, e.content, e.sentiment, e.mood, e.moodManuallySet, e.createdAt, e.updatedAt)
  }

  /** The export loses nothing but the owner, which the caller knows. */
  lemma RestoreExport(j: Journal)
    ensures Restore(ExportOf(j), j.userId) == j
  {
  }

  /** `journals.map(...)`: each journal exported in place. */
  function ExportList(js: seq<Journal>): (r: seq<ExportedJournal>)
    ensures |r| == |js|
    ensures forall i :: 0 <= i < |js| ==> r[i] == ExportOf(js[i])
  {
    seq(|js|, i requires 0 <= i < |js| => ExportOf(js[i]))
  }

  /** The export of the user's query result holds exactly the exports of the
      user's stored journals, and each entry restores to a stored journal. */
  lemma ExportListMembers(db: seq<Journal>, id: UserId)
    ensures var exported := ExportList(UserJournals(db, id));
            && (forall i :: 0 <= i < |exported| ==> Restore(exported[i], id) in db)
            && (forall j :: j in db && j.userId == id ==> ExportOf(j) in exported)
  {
    var js := UserJournals(db, id);
    var exported := ExportList(js);
    forall i | 0 <= i < |exported|
      ensures Restore(exported[i], id) in db
    {
      InUserJournals(db, id, js[i]);
      RestoreExport(js[i]);
    }
    forall j | j in db && j.userId == id
      ensures ExportOf(j) in exported
    {
      InUserJournals(db, id, j);
      var i :| 0 <= i < |js| && js[i] == j;
      assert exported[i] == ExportOf(j);
    }
  }

  /** `if (j.mood)`: a mood counts when it is present and not empty. */
  predicate Truthy(mood: Option<string>) {
    mood.Some? && mood.value != ""
  }

  /** The methods every plain object inherits from `Object.prototype`
      (sections 20.1.3 and B.2.2 of ECMAScript 2024). Reading one of them from
      the accumulator `{}` yields a function, not `undefined`. */
  const InheritedMethods: set<string> := {
    "constructor", "hasOwnProperty", "isPrototypeOf", "propertyIsEnumerable",
    "toLocaleString", "toString", "valueOf",
    "__defineGetter__", "__defineSetter__", "__lookupGetter__", "__lookupSetter__"}

  /** The inherited accessor whose setter ignores anything but an object or `null`. */
  const ProtoAccessor: string := "__proto__"

  /** The text `fn + 1` starts with for an inherited method, as V8 renders a
      built-in function (`constructor` is the function `Object`). */
  function NativeSource(name: string): string {
    "function " + (if name == "constructor" then "Object" else name) + "() { [native code] }"
  }

  /** A value of the distribution as the JSON carries it: a count, or the
      text an inherited method turns into once `+ 1` is applied to it. */
  datatype Tallied = Count(n: nat) | Concatenated(text: string)

  /** `(acc[m] || 0) + 1` on an own entry: a count goes up, a text gets `"1"` appended. */
  function PlusOne(v: Tallied): Tallied {
    match v
    case Count(n) => Count(n + 1)
    case Concatenated(t) => Concatenated(t + "1")
  }

  /** `n` copies of the digit `1`. */
  function Ones(n: nat): (r: string)
    ensures |r| == n
  {
    if n == 0 then "" else Ones(n - 1) + "1"
  }

  /** One step of the reduce, `acc[m] = (acc[m] || 0) + 1`, for a non-empty mood `m`:
      an own entry is bumped; an inherited method, read through the prototype,
      becomes its source text followed by "1"; `__proto__` reads as
      `Object.prototype`, and assigning the resulting text to it does nothing;
      any other name starts at 1. */
  function Bump(acc: map<string, Tallied>, m: string): map<string, Tallied> {
    if m == ProtoAccessor then acc
    else if m in acc then acc[m := PlusOne(acc[m])]
    else if m in InheritedMethods then acc[m := Concatenated(NativeSource(m) + "1")]
    else acc[m := Count(1)]
  }

  /** The `moodDistribution` reduce, folding left over the journals. */
  function Tally(js: seq<Journal>): (r: map<string, Tallied>)
    ensures forall m :: m in r ==> m != "" && m != ProtoAccessor
  {
    if js == [] then map[]
    else
      var mood := js[|js| - 1].mood;
      if Truthy(mood) then Bump(Tally(js[..|js| - 1]), mood.value) else Tally(js[..|js| - 1])
  }

  /** The number of journals whose mood is `m`. */
  function Occurrences(js: seq<Journal>, m: string): (n: nat)
    ensures n <= |js|
    ensures n > 0 <==> exists i :: 0 <= i < |js| && js[i].mood == Some(m)
  {
    if js == [] then 0
    else
      var init := js[..|js| - 1];
      var rest := Occurrences(init, m);
      assert forall i :: 0 <= i < |init| ==> init[i] == js[i];
      (if js[|js| - 1].mood == Some(m) then 1 else 0) + rest
  }

  /** A mood that the reduce counts as a number: non-empty and not a name
      `Object.prototype` supplies. */
  predicate Countable(mood: Option<string>) {
    Truthy(mood) && mood.value !in InheritedMethods && mood.value != ProtoAccessor
  }

  /** The number of journals with a countable mood. */
  function Mooded(js: seq<Journal>): (n: nat)
    ensures n <= |js|
  {
    if js == [] then 0 else (if Countable(js[|js| - 1].mood) then 1 else 0) + Mooded(js[..|js| - 1])
  }

  /** The value a mood occurring `n > 0` times ends up with. */
  function Expected(m: string, n: nat): Tallied {
    if m in InheritedMethods then Concatenated(NativeSource(m) + Ones(n)) else Count(n)
  }

  /** One mood at a time: `m` is a key exactly when it is non-empty, not
      `__proto__` and occurs, and then holds the value its occurrences give. */
  lemma {:induction false} TallyAt(js: seq<Journal>, m: string)
    ensures m in Tally(js) <==> m != "" && m != ProtoAccessor && Occurrences(js, m) > 0
    ensures m in Tally(js) ==> Tally(js)[m] == Expected(m, Occurrences(js, m))
  {
    if js != [] {
      var init := js[..|js| - 1];
      TallyAt(init, m);
      var acc := Tally(init);
      var mood := js[|js| - 1].mood;
      var n := Occurrences(init, m);
      assert Occurrences(js, m) == (if mood == Some(m) then n + 1 else n);
      if Truthy(mood) {
        assert Tally(js) == Bump(acc, mood.value);
        if mood.value == m && m != ProtoAccessor && n > 0 {
          assert Tally(js)[m] == PlusOne(Expected(m, n));
        }
      } else {
        assert Tally(js) == acc;
      }
    }
  }

  /** Each non-empty mood that occurs, other than `__proto__`, is a key, and
      nothing else is; an ordinary mood maps to how often it occurs, an
      inherited method's name to its source text followed by one "1" per
      occurrence. */
  lemma TallyCounts(js: seq<Journal>)
    ensures forall m :: m in Tally(js) <==> m != "" && m != ProtoAccessor && Occurrences(js, m) > 0
    ensures forall m :: m in Tally(js) ==> Tally(js)[m] == Expected(m, Occurrences(js, m))
  {
    forall m ensures m in Tally(js) <==> m != "" && m != ProtoAccessor && Occurrences(js, m) > 0 {
      TallyAt(js, m);
    }
    forall m | m in Tally(js) ensures Tally(js)[m] == Expected(m, Occurrences(js, m)) {
      TallyAt(js, m);
    }
  }

  /** A lone journal whose mood is `constructor` is recorded as the source
      text of `Object` followed by "1"; one whose mood is `__proto__` is not
      recorded at all. */
  lemma PrototypeNamedMoods(j: Journal)
    ensures j.mood == Some("constructor") ==>
      Tally([j]) == map["constructor" := Concatenated("function Object() { [native code] }1")]
    ensures j.mood == Some(ProtoAccessor) ==> Tally([j]) == map[]
  {
    assert [j][..0] == [];
    if j.mood == Some("constructor") {
      assert "constructor" in InheritedMethods;
      assert NativeSource("constructor") + "1" == "function Object() { [native code] }1";
    }
  }

  /** The numeric value of a distribution entry; a text adds nothing. */
  function CountOf(v: Tallied): nat {
    if v.Count? then v.n else 0
  }

  /** The numeric values of a map added up. */
  ghost function MapSum(m: map<string, Tallied>): nat
    decreases |m|
  {
    if m == map[] then 0
    else
      var k :| k in m;
      CountOf(m[k]) + MapSum(m - {k})
  }

  /** Any key can be taken out first. */
  lemma {:induction false} MapSumRemove(m: map<string, Tallied>, k: string)
    requires k in m
    ensures MapSum(m) == CountOf(m[k]) + MapSum(m - {k})
    decreases |m|
  {
    var c :| c in m && MapSum(m) == CountOf(m[c]) + MapSum(m - {c});
    if c != k {
      var without := m - {c};
      MapSumRemove(without, k);
      MapSumRemove(m - {k}, c);
      assert without - {k} == (m - {k}) - {c};
    }
  }

  /** Setting one entry changes the sum by the difference of its numeric values. */
  lemma MapSumUpdate(m: map<string, Tallied>, k: string, v: Tallied)
    ensures MapSum(m[k := v]) + (if k in m then CountOf(m[k]) else 0) == MapSum(m) + CountOf(v)
  {
    var updated := m[k := v];
    MapSumRemove(updated, k);
    assert updated - {k} == m - {k};
    if k in m {
      MapSumRemove(m, k);
    } else {
      assert m - {k} == m;
    }
  }

  /** The distribution's numeric counts add up to the journals with a
      countable mood, so never to more than `totalJournalEntries`. */
  lemma {:induction false} TallySum(js: seq<Journal>)
    ensures MapSum(Tally(js)) == Mooded(js) <= |js|
  {
    if js != [] {
      var init := js[..|js| - 1];
      TallySum(init);
      TallyCounts(init);
      var acc := Tally(init);
      var mood := js[|js| - 1].mood;
      if Truthy(mood) && mood.value != ProtoAccessor {
        var m := mood.value;
        var v := if m in acc then PlusOne(acc[m]) else if m in InheritedMethods then Concatenated(NativeSource(m) + "1") else Count(1);
        assert Bump(acc, m) == acc[m := v];
        MapSumUpdate(acc, m, v);
      }
    }
  }

  /** `GET /api/user/export` at `exportDate`. */
  function ExportUserData(token: Option<string>, verify: string -> Option<UserId>,
                          users: map<UserId, User>, db: seq<Journal>, exportDate: string): (r: ExportResponse)
    ensures r.ExportUnauthorized? <==> token.None? || token.value == ""
    ensures r.ExportServerError? <==> token.Some? && token.value != "" && verify(token.value).None?
    ensures r.ExportNotFound? <==>
      token.Some? && token.value != "" && verify(token.value).Some? && verify(token.value).value !in users
    ensures r.Exported? ==>
      && var id := verify(token.value).value;
         var js := UserJournals(db, id);
         && id in users
         && r.data.exportDate == exportDate
         && r.data.profile == Profile(users[id].name, users[id].email, users[id].createdAt)
         && |r.data.journals| == |js|
         && (forall i :: 0 <= i < |js| ==> r.data.journals[i] == ExportOf(js[i]))
         && r.data.statistics.totalJournalEntries == |OwnedBy(db, id)|
         && r.data.statistics.moodDistribution == Tally(js)
  {
    if token.None? || token.value == "" then ExportUnauthorized
    else
      match verify(token.value)
      case None => ExportServerError
      case Some(id) =>
        if id !in users then ExportNotFound
        else
          var user := users[id];
          var js := UserJournals(db, id);
          UserJournalsCount(db, id);
          Exported(ExportData(exportDate, Profile(user.name, user.email, user.createdAt), ExportList(js),
                              Statistics(|js|, Tally(js))))
  }

  /** Every exported entry is one of the caller's stored journals, and every
      stored journal of the caller is exported. */
  lemma ExportedAreTheCallersJournals(token: Option<string>, verify: string -> Option<UserId>,
                                      users: map<UserId, User>, db: seq<Journal>, exportDate: string)
    requires token.Some? && token.value != "" && verify(token.value).Some? && verify(token.value).value in users
    ensures var id := verify(token.value).value;
            var data := ExportUserData(token, verify, users, db, exportDate).data;
            && (forall i :: 0 <= i < |data.journals| ==> Restore(data.journals[i], id) in db)
            && (forall j :: j in db && j.userId == id ==> ExportOf(j) in data.journals)
  {
    var id := verify(token.value).value;
    assert ExportUserData(token, verify, users, db, exportDate).data.journals == ExportList(UserJournals(db, id));
    ExportListMembers(db, id);
  }

  /** The statistics agree with the exported journals: one entry per journal,
      each mood other than `__proto__` recorded with its number of
      occurrences, the numeric counts summing to at most the number of entries. */
  lemma StatisticsMatchJournals(token: Option<string>, verify: string -> Option<UserId>,
                                users: map<UserId, User>, db: seq<Journal>, exportDate: string)
    requires token.Some? && token.value != "" && verify(token.value).Some? && verify(token.value).value in users
    ensures var data := ExportUserData(token, verify, users, db, exportDate).data;
            var js := UserJournals(db, verify(token.value).value);
            var dist := data.statistics.moodDistribution;
            && data.statistics.totalJournalEntries == |data.journals|
            && (forall m :: m in dist <==> m != "" && m != ProtoAccessor && Occurrences(js, m) > 0)
            && (forall m :: m in dist ==> dist[m] == Expected(m, Occurrences(js, m)))
            && MapSum(dist) <= data.statistics.totalJournalEntries
  {
    var js := UserJournals(db, verify(token.value).value);
    UserJournalsCount(db, verify(token.value).value);
    TallyCounts(js);
    TallySum(js);
  }
}

=== FILE: journal_query.dfy ===
/**
 * `Journal.find({ userId }).sort({ createdAt: -1 })`, the query both the
 * journal list and the data export run: the caller's documents, newest first.
 * The collection is a sequence of documents; the sort is an insertion sort
 * that keeps documents with equal `createdAt` in collection order.
 */
module JournalQuery {
  import opened JournalSchema

  /** The documents belonging to `user`, in collection order. */
  function OwnedBy(db: seq<Journal>, user: UserId): (r: seq<Journal>)
    ensures |r| <= |db|
    ensures forall i :: 0 <= i < |r| ==> r[i].userId == user
    ensures forall j :: multiset(r)[j] == if j.userId == user then multiset(db)[j] else 0
  {
    if db == [] then []
    else
      var rest := OwnedBy(db[..|db| - 1], user);
      var last := db[|db| - 1];
      assert db == db[..|db| - 1] + [last];
      if last.userId == user then rest + [last] else rest
  }

  /** Newest first: `createdAt` never increases along the sequence. */
  predicate NewestFirst(js: seq<Journal>) {
    forall i, k :: 0 <= i < k < |js| ==> js[i].createdAt >= js[k].createdAt
  }

  /** A document no older than the head of a newest-first sequence can go in front of it. */
  lemma ConsNewestFirst(a: Journal, tail: seq<Journal>)
    requires NewestFirst(tail)
    requires tail == [] || a.createdAt >= tail[0].createdAt
    ensures NewestFirst([a] + tail)
  {
    var s := [a] + tail;
    forall i, k | 0 <= i < k < |s|
      ensures s[i].createdAt >= s[k].createdAt
    {
      if i == 0 {
        assert s[k] == tail[k - 1];
      }
    }
  }

  /** Places `j` before the first document not newer than it. */
  function InsertByDate(j: Journal, sorted: seq<Journal>): (r: seq<Journal>)
    requires NewestFirst(sorted)
    ensures NewestFirst(r)
    ensures multiset(r) == multiset(sorted) + multiset{j}
    ensures |r| > 0 && (r[0] == j || (|sorted| > 0 && r[0] == sorted[0]))
  {
    if sorted == [] || j.createdAt >= sorted[0].createdAt then
      ConsNewestFirst(j, sorted);
      [j] + sorted
    else
      var tail := InsertByDate(j, sorted[1..]);
      assert sorted == [sorted[0]] + sorted[1..];
      ConsNewestFirst(sorted[0], tail);
      [sorted[0]] + tail
  }

  /** Sorts newest first, keeping the documents. */
  function SortNewestFirst(js: seq<Journal>): (r: seq<Journal>)
    ensures NewestFirst(r)
    ensures multiset(r) == multiset(js)
  {
    if js == [] then []
    else
      assert js == [js[0]] + js[1..];
      InsertByDate(js[0], SortNewestFirst(js[1..]))
  }

  /** The query result: the caller's documents, newest first. */
  function UserJournals(db: seq<Journal>, user: UserId): (r: seq<Journal>)
    ensures NewestFirst(r)
    ensures forall i :: 0 <= i < |r| ==> r[i].userId == user
    ensures forall j :: multiset(r)[j] == if j.userId == user then multiset(db)[j] else 0
  {
    SortNewestFirst(OwnedBy(db, user))
  }

  /** The query returns as many documents as `countDocuments({ userId })` counts. */
  lemma UserJournalsCount(db: seq<Journal>, user: UserId)
    ensures |UserJournals(db, user)| == |OwnedBy(db, user)|
  {
    assert |multiset(UserJournals(db, user))| == |multiset(OwnedBy(db, user))|;
  }

  /** A document is in the query result exactly when it is stored and belongs to the user. */
  lemma InUserJournals(db: seq<Journal>, user: UserId, j: Journal)
    ensures j in UserJournals(db, user) <==> j in db && j.userId == user
  {
    var r := UserJournals(db, user);
    assert j in r <==> j in multiset(r);
    assert j in db <==> j in multiset(db);
  }
}

=== FILE: journal_route.dfy ===
/**
 * The journal API route: `GET` lists the caller's journals a page at a time,
 * `POST` creates one. The caller is identified from the `token` cookie;
 * `jwt.verify` is the parameter `verify` (`None` when it throws). MongoDB is
 * the sequence `db` of stored documents.
 */
module JournalRoute {
  import opened Wrappers
  import opened JournalSchema
  import opened JournalQuery
  import Sentiment

  const DefaultPage: int := 1
  const DefaultLimit: int := 10

  /** `getUserFromToken` followed by the routes' `if (!userId)` test: the
      caller's id, or nothing when the cookie is absent, fails verification, or
      carries an empty id. */
  function Caller(token: Option<string>, verify: string -> Option<UserId>): (r: Option<UserId>)
    ensures r.Some? <==> token.Some? && verify(token.value).Some? && verify(token.value).value != ""
    ensures r.Some? ==> r == verify(token.value)
  {
    match token
    case None => None
    case Some(t) =>
      match verify(t)
      case None => None
      case Some(user) => if user == "" then None else Some(user)
  }

  /** `Math.ceil(n / d)` for a positive `d`: the fewest pages of `d` that hold `n`. */
  function CeilDiv(n: nat, d: nat): (r: nat)
    requires d > 0
    ensures r * d >= n
    ensures r == 0 || (r - 1) * d < n
  {
    (n + d - 1) / d
  }

  /** `.skip(skip).limit(limit)` on a query result. */
  function Window(all: seq<Journal>, skip: nat, limit: nat): (r: seq<Journal>)
    ensures |r| == if skip >= |all| then 0 else if skip + limit <= |all| then limit else |all| - skip
    ensures forall i :: 0 <= i < |r| ==> r[i] == all[skip + i]
  {
    if skip >= |all| then []
    else if skip + limit <= |all| then all[skip..skip + limit]
    else all[skip..]
  }

  /** A window of a newest-first sequence is newest first. */
  lemma WindowNewestFirst(all: seq<Journal>, skip: nat, limit: nat)
    requires NewestFirst(all)
    ensures NewestFirst(Window(all, skip, limit))
  {
    var w := Window(all, skip, limit);
    forall i, k | 0 <= i < k < |w|
      ensures w[i].createdAt >= w[k].createdAt
    {
      assert w[i] == all[skip + i] && w[k] == all[skip + k];
    }
  }

  /** The skip of page `page` is negative exactly when the page is below 1. */
  lemma SkipSign(page: int, limit: int)
    requires limit > 0
    ensures (page - 1) * limit < 0 <==> page < 1
  {
    if page >= 1 {
      assert (page - 1) * limit >= 0;
    } else {
      assert (page - 1) * limit <= -limit;
    }
  }

  /** The documents on page `page` at `limit` per page. */
  function PageWindow(all: seq<Journal>, page: int, limit: int): seq<Journal>
    requires page >= 1 && limit > 0
  {
    var skip := (page - 1) * limit;
    Window(all, skip, limit)
  }

  /** The `pagination` object of a `GET` response. */
  datatype Pagination = Pagination(page: int, limit: int, totalCount: nat, totalPages: nat, hasMore: bool)

  /** A `GET` response: 401, 500, or the page of journals with its pagination. */
  datatype ListResponse =
    | ListUnauthorized
    | ListServerError
    | Listed(journals: seq<Journal>, pagination: Pagination)

  /** The page `page` of `user`'s journals and its pagination. */
  function ListPage(user: UserId, page: int, limit: int, db: seq<Journal>): (r: ListResponse)
    requires page >= 1 && limit > 0
    ensures r.Listed?
    ensures r.pagination.page == page && r.pagination.limit == limit
    ensures |r.journals| <= limit
    ensures NewestFirst(r.journals)
    ensures forall i :: 0 <= i < |r.journals| ==> r.journals[i].userId == user
    ensures r.journals == PageWindow(UserJournals(db, user), page, limit)
    ensures r.pagination.totalCount == |OwnedBy(db, user)|
    ensures r.pagination.totalPages == CeilDiv(r.pagination.totalCount, limit)
    ensures r.pagination.hasMore <==> (page - 1) * limit + |r.journals| < r.pagination.totalCount
  {
    SkipSign(page, limit);
    var skip := (page - 1) * limit;
    var totalCount := |OwnedBy(db, user)|;
    var all := UserJournals(db, user);
    UserJournalsCount(db, user);
    var journals := PageWindow(all, page, limit);
    WindowNewestFirst(all, skip, limit);
    Listed(journals, Pagination(page, limit, totalCount, CeilDiv(totalCount, limit),
                                skip + |journals| < totalCount))
  }

  /** Page `page` lists the caller's result after dropping the first
      `skip = (page - 1) * limit` journals, keeping at most `limit`. */
  lemma ListPageSkipsThenLimits(user: UserId, page: int, limit: int, db: seq<Journal>, skip: nat)
    requires page >= 1 && limit > 0 && skip == (page - 1) * limit
    ensures var all := UserJournals(db, user);
            var listed := ListPage(user, page, limit, db).journals;
            && |listed| == (if skip >= |all| then 0 else if limit <= |all| - skip then limit else |all| - skip)
            && forall i :: 0 <= i < |listed| ==> listed[i] == all[skip + i]
  {
    assert ListPage(user, page, limit, db).journals == Window(UserJournals(db, user), skip, limit);
  }

  /** Requesting pages `1..totalPages` of `GET` returns every one of the
      caller's journals exactly once, newest first, and the page after the
      last one is empty. */
  lemma ListedPagesCoverCallersJournals(user: UserId, limit: int, db: seq<Journal>)
    requires limit > 0
    ensures var all := UserJournals(db, user);
            var total := ListPage(user, 1, limit, db).pagination.totalPages;
            && Pages(all, limit, total) == all
            && ListPage(user, total + 1, limit, db).journals == []
  {
    UserJournalsCount(db, user);
    PagesCoverResult(UserJournals(db, user), limit);
  }

  /** `GET /api/journal?page=&limit=`. Absent parameters take their defaults; a
      page below 1 makes the skip negative, which the database rejects (500). */
  function ListJournals(token: Option<string>, verify: string -> Option<UserId>,
                        pageParam: Option<int>, limitParam: Option<int>, db: seq<Journal>): (r: ListResponse)
    requires limitParam.None? || limitParam.value > 0
    ensures r.ListUnauthorized? <==> Caller(token, verify).None?
    ensures r.ListServerError? <==> Caller(token, verify).Some? && pageParam.GetOr(DefaultPage) < 1
    ensures r.Listed? ==>
      r == ListPage(Caller(token, verify).value, pageParam.GetOr(DefaultPage), limitParam.GetOr(DefaultLimit), db)
  {
    match Caller(token, verify)
    case None => ListUnauthorized
    case Some(user) =>
      var page := pageParam.GetOr(DefaultPage);
      var limit := limitParam.GetOr(DefaultLimit);
      SkipSign(page, limit);
      if (page - 1) * limit < 0 then ListServerError
      else ListPage(user, page, limit, db)
  }

  /** Consecutive pages tile the result: pages `1..k` together are its first `k * limit` documents. */
  lemma {:induction false} PagesTile(all: seq<Journal>, limit: int, k: nat)
    requires limit > 0
    ensures Pages(all, limit, k) == all[..if k * limit <= |all| then k * limit else |all|]
  {
    if k > 0 {
      PagesTile(all, limit, k - 1);
      PagesStep(all, limit, k);
    }
  }

  /** One more page extends the prefix the earlier pages cover up to where it ends. */
  lemma PagesStep(all: seq<Journal>, limit: int, k: nat)
    requires limit > 0 && k >= 1
    requires Pages(all, limit, k - 1) == all[..if (k - 1) * limit <= |all| then (k - 1) * limit else |all|]
    ensures Pages(all, limit, k) == all[..if k * limit <= |all| then k * limit else |all|]
  {
    var prior := if (k - 1) * limit <= |all| then (k - 1) * limit else |all|;
    var upto := if k * limit <= |all| then k * limit else |all|;
    PageWindowSlice(all, k, limit);
    PrefixJoin(all, prior, upto);
    calc {
      Pages(all, limit, k);
      Pages(all, limit, k - 1) + PageWindow(all, k, limit);
      all[..prior] + all[prior..upto];
      all[..upto];
    }
  }

  /** A prefix followed by the slice after it is the longer prefix. */
  lemma PrefixJoin(all: seq<Journal>, lo: nat, hi: nat)
    requires lo <= hi <= |all|
    ensures all[..lo] + all[lo..hi] == all[..hi]
  {
  }

  /** Page `k` starts where page `k - 1` ends and runs to where page `k + 1`
      starts, both cut at the end of the sequence. */
  lemma PageWindowSlice(all: seq<Journal>, k: int, limit: int)
    requires k >= 1 && limit > 0
    ensures var prior := if (k - 1) * limit <= |all| then (k - 1) * limit else |all|;
            var upto := if k * limit <= |all| then k * limit else |all|;
            0 <= prior <= upto <= |all| && PageWindow(all, k, limit) == all[prior..upto]
  {
    var skip := (k - 1) * limit;
    assert k * limit == skip + limit;
    assert skip >= 0;
  }

  /** Pages `1..k` concatenated. */
  function Pages(all: seq<Journal>, limit: int, k: nat): seq<Journal>
    requires limit > 0
  {
    if k == 0 then [] else Pages(all, limit, k - 1) + PageWindow(all, k, limit)
  }

  /** Walking pages `1..totalPages` returns every document of the result
      exactly once, in order, and the page after the last one is empty. */
  lemma PagesCoverResult(all: seq<Journal>, limit: int)
    requires limit > 0
    ensures Pages(all, limit, CeilDiv(|all|, limit)) == all
    ensures PageWindow(all, CeilDiv(|all|, limit) + 1, limit) == []
  {
    PagesTile(all, limit, CeilDiv(|all|, limit));
  }

  /** A page holds documents exactly when its number is at most `totalPages`. */
  lemma PageNonEmptyIffWithinTotal(all: seq<Journal>, page: int, limit: int)
    requires page >= 1 && limit > 0
    ensures |PageWindow(all, page, limit)| > 0 <==> page <= CeilDiv(|all|, limit)
  {
    var t := CeilDiv(|all|, limit);
    if page <= t {
      assert (page - 1) * limit <= (t - 1) * limit;
    } else {
      assert (page - 1) * limit >= t * limit;
    }
  }

  /** A window past `skip` holds documents exactly when `skip` is inside the sequence. */
  lemma WindowNonEmpty(all: seq<Journal>, skip: nat, limit: nat)
    requires limit > 0
    ensures |Window(all, skip, limit)| > 0 <==> skip < |all|
  {
  }

  /** On one page, `hasMore` holds exactly when the following page is not empty. */
  lemma ListPageHasMore(user: UserId, page: int, limit: int, db: seq<Journal>)
    requires page >= 1 && limit > 0
    ensures ListPage(user, page, limit, db).pagination.hasMore <==>
      |PageWindow(UserJournals(db, user), page + 1, limit)| > 0
  {
    var all := UserJournals(db, user);
    UserJournalsCount(db, user);
    SkipSign(page, limit);
    var skip := (page - 1) * limit;
    var next := page * limit;
    assert next == skip + limit;
    assert ListPage(user, page, limit, db).journals == Window(all, skip, limit);
    assert PageWindow(all, page + 1, limit) == Window(all, next, limit);
    WindowNonEmpty(all, next, limit);
  }

  /** `hasMore` is reported exactly when the next page holds documents. */
  lemma HasMoreIffNextPageNonEmpty(token: Option<string>, verify: string -> Option<UserId>,
                                   pageParam: Option<int>, limitParam: Option<int>, db: seq<Journal>)
    requires limitParam.None? || limitParam.value > 0
    requires Caller(token, verify).Some? && pageParam.GetOr(DefaultPage) >= 1
    ensures var r := ListJournals(token, verify, pageParam, limitParam, db);
            var all := UserJournals(db, Caller(token, verify).value);
            r.pagination.hasMore <==> |PageWindow(all, r.pagination.page + 1, r.pagination.limit)| > 0
  {
    ListPageHasMore(Caller(token, verify).value, pageParam.GetOr(DefaultPage), limitParam.GetOr(DefaultLimit), db);
  }

  /** The body fields `POST` reads. */
  datatype CreateBody = CreateBody(
    title: Option<string>,
    content: Option<string>,
    sentiment: Option<string>,
    mood: Option<string>,
    moodManuallySet: Option<bool>)

  /** What `await req.json()` gives the destructuring: a body that is not JSON,
      or is `null`, makes it throw; any other JSON value supplies its fields
      (all absent when it is not an object). */
  datatype CreateRequest = UnreadableBody | Fields(body: CreateBody)

  /** A `POST` outcome: 201 with the new document, 401, or 500 (an unreadable
      body, or the schema refused the document). */
  datatype CreateOutcome = Created(journal: Journal) | CreateUnauthorized | CreateServerError

  /** A `POST` outcome and the collection afterwards. */
  datatype CreateResult = CreateResult(outcome: CreateOutcome, db: seq<Journal>)

  /** The draft `POST` hands to `Journal.create`: the caller as owner and
      `moodManuallySet || false`. */
  function DraftFor(user: UserId, body: CreateBody): JournalDraft {
    JournalDraft(Some(user), body.title, body.content, body.sentiment, body.mood,
                 Some(body.moodManuallySet.GetOr(false)))
  }

  /** `POST /api/journal` at time `now`. */
  function CreateJournal(token: Option<string>, verify: string -> Option<UserId>,
                         req: CreateRequest, now: int, db: seq<Journal>): (r: CreateResult)
    ensures r.outcome.CreateUnauthorized? <==> Caller(token, verify).None?
    ensures !r.outcome.Created? ==> r.db == db
    ensures r.outcome.Created? ==>
      && req.Fields?
      && r.db == db + [r.outcome.journal]
      && r.outcome.journal.userId == Caller(token, verify).value
      && Create(DraftFor(Caller(token, verify).value, req.body), now) == Success(r.outcome.journal)
      && r.outcome.journal.title == req.body.title.value
      && r.outcome.journal.content == req.body.content.value
      && Sentiment.LabelName(r.outcome.journal.sentiment) == req.body.sentiment.GetOr("Neutral")
      && r.outcome.journal.mood == req.body.mood
      && r.outcome.journal.moodManuallySet == req.body.moodManuallySet.GetOr(false)
      && r.outcome.journal.createdAt == now
    ensures Caller(token, verify).Some? && req.UnreadableBody? ==> r.outcome.CreateServerError?
    ensures Caller(token, verify).Some? && req.Fields? ==>
      (r.outcome.Created? <==> Create(DraftFor(Caller(token, verify).value, req.body), now).Success?)
  {
    match Caller(token, verify)
    case None => CreateResult(CreateUnauthorized, db)
    case Some(user) =>
      match req
      case UnreadableBody => CreateResult(CreateServerError, db)
      case Fields(body) =>
        match Create(DraftFor(user, body), now)
        case Success(journal) => CreateResult(Created(journal), db + [journal])
        case Failure(_) => CreateResult(CreateServerError, db)
  }

  /** Without a valid token neither route reveals or stores anything. */
  lemma UnauthorizedTouchesNothing(token: Option<string>, verify: string -> Option<UserId>,
                                   pageParam: Option<int>, limitParam: Option<int>,
                                   req: CreateRequest, now: int, db: seq<Journal>)
    requires limitParam.None? || limitParam.value > 0
    requires Caller(token, verify).None?
    ensures ListJournals(token, verify, pageParam, limitParam, db) == ListUnauthorized
    ensures CreateJournal(token, verify, req, now, db) == CreateResult(CreateUnauthorized, db)
  {
  }
}

=== FILE: journal_schema.dfy ===
/**
 * The `Journal` document schema: which fields are required, the title length
 * limit, the allowed sentiment values, and the defaults Mongoose fills in.
 * Validation collects every failing path, as Mongoose's `ValidationError` does.
 */
module JournalSchema {
  import opened Wrappers
  import opened Sentiment
  import Text

  /** A user's `ObjectId`, in its string form. */
  type UserId = string

  /** `maxlength` of the title, counted in UTF-16 code units as JavaScript's `.length`. */
  const TitleMaxLength: nat := 100

  /** The fields handed to `Journal.create`; `None` is an absent (undefined) field. */
  datatype JournalDraft = JournalDraft(
    userId: Option<UserId>,
    title: Option<string>,
    content: Option<string>,
    sentiment: Option<string>,
    mood: Option<string>,
    moodManuallySet: Option<bool>)

  /** A stored journal document. The schema of
      `Prototypes/mindease-platform/models/Journal.ts` declares no `updatedAt`,
      so documents it creates carry none; the field is kept because the export
      route copies it from the model it imports. */
  datatype Journal = Journal(
    userId: UserId,
    title: string,
    content: string,
    sentiment: Label,
    mood: Option<string>,
    moodManuallySet: bool,
    createdAt: int,
    updatedAt: Option<int>)

  /** The paths whose validators can fail. */
  datatype Violation = UserIdRequired | TitleRequired | TitleTooLong | ContentRequired | SentimentNotAllowed

  /** The sentiment `enum`: the name of one of the three labels. */
  function ParseLabel(s: string): (r: Option<Label>)
    ensures r.Some? ==> LabelName(r.value) == s
  {
    if s == "Positive" then Some(Positive)
    else if s == "Neutral" then Some(Neutral)
    else if s == "Negative" then Some(Negative)
    else None
  }

  /** Every label's name passes the `enum` validator and parses back to that label. */
  lemma ParseLabelName(l: Label)
    ensures ParseLabel(LabelName(l)) == Some(l)
  {
  }

  /** Every label `analyzeSentiment` produces is an allowed sentiment value. */
  lemma AnalyzedLabelIsAllowed(text: string, sentenceScores: seq<real>)
    ensures ParseLabel(LabelName(AnalyzeSentiment(text, sentenceScores).sentiment)).Some?
  {
    ParseLabelName(AnalyzeSentiment(text, sentenceScores).sentiment);
  }

  /** Mongoose's `required` on a String path: absent values and `""` both fail. */
  predicate Provided(v: Option<string>) {
    v.Some? && v.value != ""
  }

  /** The validators that fail on a draft: Mongoose runs every validator and
      reports all failures together, not just the first. */
  function Violations(d: JournalDraft): (r: set<Violation>)
    ensures UserIdRequired in r <==> d.userId.None?
    ensures TitleRequired in r <==> !Provided(d.title)
    ensures TitleTooLong in r <==> Provided(d.title) && Text.Utf16Length(d.title.value) > TitleMaxLength
    ensures ContentRequired in r <==> !Provided(d.content)
    ensures SentimentNotAllowed in r <==> d.sentiment.Some? && ParseLabel(d.sentiment.value).None?
  {
    (if d.userId.None? then {UserIdRequired} else {})
    + (if !Provided(d.title) then {TitleRequired}
       else if Text.Utf16Length(d.title.value) > TitleMaxLength then {TitleTooLong}
       else {})
    + (if !Provided(d.content) then {ContentRequired} else {})
    + (if d.sentiment.Some? && ParseLabel(d.sentiment.value).None? then {SentimentNotAllowed} else {})
  }

  /** `Journal.create(draft)` at time `now`: the stored document with its
      defaults, or every violated validator. */
  function Create(d: JournalDraft, now: int): (r: Result<Journal, set<Violation>>)
    ensures r.Success? <==>
      && d.userId.Some?
      && Provided(d.title) && Text.Utf16Length(d.title.value) <= TitleMaxLength
      && Provided(d.content)
      && (d.sentiment.None? || d.sentiment.value in {"Positive", "Neutral", "Negative"})
    ensures r.Failure? ==> r.error != {}
    ensures r.Success? ==>
      && r.value.userId == d.userId.value
      && r.value.title == d.title.value && r.value.content == d.content.value
      && LabelName(r.value.sentiment) == d.sentiment.GetOr("Neutral")
      && r.value.mood == d.mood
      && r.value.moodManuallySet == d.moodManuallySet.GetOr(false)
      && r.value.createdAt == now && r.value.updatedAt.None?
  {
    var violations := Violations(d);
    if violations != {} then Failure(violations)
    else
      var sentiment := if d.sentiment.Some? then ParseLabel(d.sentiment.value).value else Neutral;
      Success(Journal(d.userId.value, d.title.value, d.content.value, sentiment, d.mood,
                      d.moodManuallySet.GetOr(false), now, None))
  }

  /** `create` refuses a draft exactly when some validator fails, and the
      refusal carries every failing validator. */
  lemma RefusalReportsEveryViolation(d: JournalDraft, now: int)
    ensures Create(d, now).Failure? <==> Violations(d) != {}
    ensures Create(d, now).Failure? ==> Create(d, now).error == Violations(d)
  {
  }
}

=== FILE: key_lifecycle.dfy ===
/**
 * Sequences of calls into the encryption engine, each an atomic step on the
 * browser storage, and the properties that hold across any such sequence:
 * the slot follows the two-state NO_KEY / KEY_ACTIVE machine, never comes to
 * hold a string that is not JSON, never disturbs other storage entries, keeps
 * its key while no direct generation, clear or import happens, and an exported
 * backup restores it.
 */
module KeyLifecycle {
  import opened Wrappers
  import opened Encryption

  /** One call of the engine's public surface, with the randomness it draws. */
  datatype Op =
    | Generate(newKey: CryptoKey)
    | GetKey(newKey: CryptoKey)
    | Encrypt(newKey: CryptoKey, iv: Iv, plaintext: string)
    | Decrypt(newKey: CryptoKey, blob: string)
    | HasKey
    | ExportKey
    | ClearKey
    | ImportKey(keyData: string)

  /** The storage after one call; a refused import writes nothing. */
  function Apply(p: Primitives, store: Store, op: Op): Store {
    match op
    case Generate(k) => GenerateAndStoreKey(p, k, store).store
    case GetKey(k) => GetOrCreateEncryptionKey(p, k, store).store
    case Encrypt(k, iv, text) => EncryptText(p, k, iv, text, store).store
    case Decrypt(k, blob) => DecryptText(p, k, blob, store).store
    case HasKey => store
    case ExportKey => store
    case ClearKey => ClearEncryptionKey(store)
    case ImportKey(keyData) =>
      match ImportEncryptionKey(p, keyData, store)
      case Success(updated) => updated
      case Failure(_) => store
  }

  /** The storage after the calls `ops`, in order. */
  function Run(p: Primitives, store: Store, ops: seq<Op>): Store
    decreases |ops|
  {
    if ops == [] then store else Apply(p, Run(p, store, ops[..|ops| - 1]), ops[|ops| - 1])
  }

  /** The key slot's two states: empty, or holding a key. */
  datatype KeyState = NoKey | KeyActive

  function StateOf(store: Store): KeyState {
    if HasEncryptionKey(store) then KeyActive else NoKey
  }

  /** The key slot's state machine: generation, key lookups (directly or through
      encryption and decryption) and accepted imports activate a key, clearing
      removes it, queries and refused imports change nothing. */
  function Transition(p: Primitives, state: KeyState, op: Op): KeyState {
    match op
    case Generate(_) => KeyActive
    case GetKey(_) => KeyActive
    case Encrypt(_, _, _) => KeyActive
    case Decrypt(_, _) => KeyActive
    case HasKey => state
    case ExportKey => state
    case ClearKey => NoKey
    case ImportKey(keyData) => if p.isJson(keyData) then KeyActive else state
  }

  function Machine(p: Primitives, state: KeyState, ops: seq<Op>): KeyState
    decreases |ops|
  {
    if ops == [] then state else Transition(p, Machine(p, state, ops[..|ops| - 1]), ops[|ops| - 1])
  }

  /** Every call moves the storage's state as the state machine says. */
  lemma ApplyFollowsMachine(p: Primitives, store: Store, op: Op)
    ensures StateOf(Apply(p, store, op)) == Transition(p, StateOf(store), op)
  {
  }

  /** Any sequence of calls moves the storage's state as the state machine says. */
  lemma {:induction false} RunFollowsMachine(p: Primitives, store: Store, ops: seq<Op>)
    ensures StateOf(Run(p, store, ops)) == Machine(p, StateOf(store), ops)
    decreases |ops|
  {
    if ops != [] {
      RunFollowsMachine(p, store, ops[..|ops| - 1]);
      ApplyFollowsMachine(p, Run(p, store, ops[..|ops| - 1]), ops[|ops| - 1]);
    }
  }

  /** The slot is empty or holds a string that parses as JSON. */
  ghost predicate SlotParseable(p: Primitives, store: Store) {
    Stored(store).None? || p.isJson(Stored(store).value)
  }

  /** An exported key is JSON. */
  lemma ExportedKeyIsJson(p: Primitives, k: CryptoKey)
    requires Lawful(p)
    ensures p.isJson(p.exportJwk(k))
  {
    assert p.importJwk(p.exportJwk(k)).Some?;
  }

  lemma ApplyKeepsSlotParseable(p: Primitives, store: Store, op: Op)
    requires Lawful(p) && SlotParseable(p, store)
    ensures SlotParseable(p, Apply(p, store, op))
  {
    match op
    case Generate(k) => ExportedKeyIsJson(p, k);
    case GetKey(k) => ExportedKeyIsJson(p, k);
    case Encrypt(k, _, _) => ExportedKeyIsJson(p, k);
    case Decrypt(k, _) => ExportedKeyIsJson(p, k);
    case _ =>
  }

  /** Starting from an empty or parseable slot, no sequence of calls ever
      leaves a non-JSON string in the slot. */
  lemma {:induction false} RunKeepsSlotParseable(p: Primitives, store: Store, ops: seq<Op>)
    requires Lawful(p) && SlotParseable(p, store)
    ensures SlotParseable(p, Run(p, store, ops))
    decreases |ops|
  {
    if ops != [] {
      RunKeepsSlotParseable(p, store, ops[..|ops| - 1]);
      ApplyKeepsSlotParseable(p, Run(p, store, ops[..|ops| - 1]), ops[|ops| - 1]);
    }
  }

  /** No sequence of calls touches a storage entry other than the key slot. */
  lemma {:induction false} RunLeavesOtherEntries(p: Primitives, store: Store, ops: seq<Op>)
    ensures OthersUnchanged(store, Run(p, store, ops))
    decreases |ops|
  {
    if ops != [] {
      RunLeavesOtherEntries(p, store, ops[..|ops| - 1]);
    }
  }

  /** Calls other than a direct generation, clearing and importing. */
  predicate KeepsKey(op: Op) {
    !op.Generate? && !op.ClearKey? && !op.ImportKey?
  }

  /** While only key-keeping calls happen, a usable stored key stays in place. */
  lemma {:induction false} KeyKeepingRunKeepsKey(p: Primitives, store: Store, ops: seq<Op>, k: CryptoKey)
    requires Lawful(p) && StoredKey(p, store) == Some(k)
    requires forall i :: 0 <= i < |ops| ==> KeepsKey(ops[i])
    ensures StoredKey(p, Run(p, store, ops)) == Some(k)
    decreases |ops|
  {
    if ops != [] {
      KeyKeepingRunKeepsKey(p, store, ops[..|ops| - 1], k);
    }
  }

  /** A blob stays decryptable to its plaintext (less a leading byte order
      mark) across any sequence of key-keeping calls made after the encryption. */
  lemma BlobSurvivesKeyKeepingRun(p: Primitives, newKey1: CryptoKey, newKey2: CryptoKey, iv: Iv,
                                  plaintext: string, store: Store, ops: seq<Op>)
    requires Lawful(p)
    requires forall i :: 0 <= i < |ops| ==> KeepsKey(ops[i])
    ensures var e := EncryptText(p, newKey1, iv, plaintext, store);
            DecryptText(p, newKey2, e.blob, Run(p, e.store, ops)).text == Success(StripBom(plaintext))
  {
    var e := EncryptText(p, newKey1, iv, plaintext, store);
    var k := StoredKey(p, e.store).value;
    KeyKeepingRunKeepsKey(p, e.store, ops, k);
    var data := p.encodeUtf8(plaintext);
    UnframeFrame(iv, p.seal(k, iv, data));
    assert Opened(p, k, e.blob) == Some(data);
  }

  /** Importing a backup taken by `exportEncryptionKey` restores the slot, and
      so the key, after any sequence of calls in between. */
  lemma BackupRestoresKey(p: Primitives, store: Store, ops: seq<Op>, backup: string)
    requires ExportEncryptionKey(store) == Success(backup) && p.isJson(backup)
    ensures var restored := Run(p, store, ops + [ImportKey(backup)]);
            Stored(restored) == Stored(store) && StoredKey(p, restored) == StoredKey(p, store)
  {
    var all := ops + [ImportKey(backup)];
    assert all[..|all| - 1] == ops;
  }
}

=== FILE: middleware.dfy ===
/**
 * The route guard run before every page request: paths under a protected
 * prefix need a `token` cookie that `jwtVerify` accepts; otherwise the
 * visitor is sent to `/register`, losing the cookie when it was present but
 * invalid. `jwtVerify` is the parameter `verify` (`true` when it resolves).
 */
module Middleware {
  import opened Wrappers
  import Text

  /** The prefixes that need a signed-in visitor. */
  const ProtectedRoutes: seq<string> := ["/dashboard", "/chat", "/journal", "/mood", "/tips", "/settings", "/help"]

  /** Where visitors without a valid token are sent. */
  const RegisterPath: string := "/register"

  /** The parts of `request.nextUrl` a redirect keeps. */
  datatype Url = Url(origin: string, pathname: string, search: string, hash: string)

  /** Pass the request on, or redirect it, deleting the `token` cookie or not. */
  datatype Action = Next | Redirect(to: Url, deleteToken: bool)

  /** `routes.some(route => path.startsWith(route))`. */
  predicate AnyPrefix(routes: seq<string>, path: string) {
    |routes| > 0 && (Text.IsPrefix(routes[0], path) || AnyPrefix(routes[1..], path))
  }

  /** `some` holds exactly when one of the routes is a prefix of the path. */
  lemma {:induction false} AnyPrefixIffSome(routes: seq<string>, path: string)
    ensures AnyPrefix(routes, path) <==> exists i :: 0 <= i < |routes| && Text.IsPrefix(routes[i], path)
  {
    if |routes| > 0 {
      AnyPrefixIffSome(routes[1..], path);
      if exists i :: 0 <= i < |routes| && Text.IsPrefix(routes[i], path) {
        var i :| 0 <= i < |routes| && Text.IsPrefix(routes[i], path);
        if i > 0 {
          assert routes[1..][i - 1] == routes[i];
        }
      }
      if AnyPrefix(routes[1..], path) {
        var i :| 0 <= i < |routes[1..]| && Text.IsPrefix(routes[1..][i], path);
        assert routes[i + 1] == routes[1..][i];
      }
    }
  }

  predicate IsProtected(pathname: string) {
    AnyPrefix(ProtectedRoutes, pathname)
  }

  /** `middleware(request)` for a request to `url` carrying the `token`
      cookie's value, if any. */
  function Guard(url: Url, token: Option<string>, verify: string -> bool): (r: Action)
    ensures r.Next? <==> !IsProtected(url.pathname) || (token.Some? && verify(token.value))
    ensures r.Redirect? ==> r.to == url.(pathname := RegisterPath) && (r.deleteToken <==> token.Some?)
  {
    if !IsProtected(url.pathname) then Next
    else
      match token
      case None => Redirect(url.(pathname := RegisterPath), false)
      case Some(t) => if verify(t) then Next else Redirect(url.(pathname := RegisterPath), true)
  }

  /** Matching is by string prefix, so every extension of a protected path is
      protected too. */
  lemma {:induction false} ExtensionStaysProtected(routes: seq<string>, path: string, suffix: string)
    requires AnyPrefix(routes, path)
    ensures AnyPrefix(routes, path + suffix)
  {
    var p := path + suffix;
    if Text.IsPrefix(routes[0], path) {
      assert p[..|routes[0]|] == path[..|routes[0]|];
    } else {
      ExtensionStaysProtected(routes[1..], path, suffix);
    }
  }

  /** Prefix matching, not segment matching: `/helpful` falls under `/help`. */
  lemma HelpfulIsProtected()
    ensures IsProtected("/helpful")
  {
    ExtensionStaysProtected(ProtectedRoutes[6..], "/help", "ful");
    AnyPrefixIffSome(ProtectedRoutes[6..], "/helpful");
    AnyPrefixIffSome(ProtectedRoutes, "/helpful");
    assert ProtectedRoutes[6..][0] == ProtectedRoutes[6];
  }

  /** The redirect target is not protected, so a redirected visitor is let
      through whatever cookie they carry: the guard cannot loop. */
  lemma RedirectTargetPassesThrough(url: Url, token: Option<string>, verify: string -> bool)
    ensures !IsProtected(RegisterPath)
    ensures Guard(url.(pathname := RegisterPath), token, verify) == Next
  {
    AnyPrefixIffSome(ProtectedRoutes, RegisterPath);
    forall i | 0 <= i < |ProtectedRoutes|
      ensures !Text.IsPrefix(ProtectedRoutes[i], RegisterPath)
    {
      assert |ProtectedRoutes[i]| > 1 && ProtectedRoutes[i][1] != RegisterPath[1];
    }
  }

  /** A page is served exactly when it is public or the token verifies; the
      token is deleted only when one was presented and failed. */
  lemma AccessRule(url: Url, token: Option<string>, verify: string -> bool)
    ensures Guard(url, token, verify) == Next || Guard(url, token, verify).to.pathname == RegisterPath
    ensures Guard(url, token, verify).Redirect? && Guard(url, token, verify).deleteToken ==>
      token.Some? && !verify(token.value) && IsProtected(url.pathname)
  {
  }
}

=== FILE: sentiment.dfy ===
/**
 * `analyzeSentiment`: the mean of the per-sentence sentiment scores mapped
 * onto a label, a mood emoji and a 1..5 score by five threshold bands.
 * Sentence splitting and per-sentence scoring belong to the wink-nlp library
 * and enter as the sequence `sentenceScores`; arithmetic is over `real`.
 */
module Sentiment {
  import Text

  /** The three sentiment labels. */
  datatype Label = Positive | Neutral | Negative

  /** The label as the strings the routes and the journal schema use. */
  function LabelName(l: Label): string {
    match l
    case Positive => "Positive"
    case Neutral => "Neutral"
    case Negative => "Negative"
  }

  /** `{ sentiment, mood, score }`. */
  datatype SentimentResult = SentimentResult(sentiment: Label, mood: string, score: int)

  const Crying: string := "\U{1F622}"
  const Worried: string := "\U{1F61F}"
  const NeutralFace: string := "\U{1F610}"
  const Smiling: string := "\U{1F60A}"
  const Grinning: string := "\U{1F604}"

  /** The answer for blank text or text without sentences. */
  const NeutralDefault: SentimentResult := SentimentResult(Neutral, NeutralFace, 3)

  /** The label each score stands for: 1-2 negative, 3 neutral, 4-5 positive. */
  function LabelOfScore(score: int): Label {
    if score <= 2 then Negative else if score == 3 then Neutral else Positive
  }

  /** The emoji each score stands for. */
  function EmojiOfScore(score: int): string {
    if score <= 1 then Crying
    else if score == 2 then Worried
    else if score == 3 then NeutralFace
    else if score == 4 then Smiling
    else Grinning
  }

  /** `sentiments.reduce((a, b) => a + b, 0)`. */
  function Sum(s: seq<real>): real {
    if s == [] then 0.0 else Sum(s[..|s| - 1]) + s[|s| - 1]
  }

  /** The average sentiment of a non-empty sequence of sentence scores: when
      every sentence has the same score, that score. */
  function Mean(s: seq<real>): (r: real)
    requires |s| > 0
    ensures (forall i :: 0 <= i < |s| ==> s[i] == s[0]) ==> r == s[0]
  {
    SumOfEqualScores(s);
    Sum(s) / (|s| as real)
  }

  /** The threshold bands, each closed at its upper end. */
  function Classify(avg: real): (r: SentimentResult)
    ensures 1 <= r.score <= 5
    ensures r.sentiment == LabelOfScore(r.score) && r.mood == EmojiOfScore(r.score)
  {
    if avg <= -0.4 then SentimentResult(Negative, Crying, 1)
    else if avg <= -0.1 then SentimentResult(Negative, Worried, 2)
    else if avg <= 0.1 then SentimentResult(Neutral, NeutralFace, 3)
    else if avg <= 0.4 then SentimentResult(Positive, Smiling, 4)
    else SentimentResult(Positive, Grinning, 5)
  }

  /** `analyzeSentiment(text)`, given the scores wink-nlp assigns to its sentences. */
  function AnalyzeSentiment(text: string, sentenceScores: seq<real>): (r: SentimentResult)
    ensures Text.IsBlank(text) || |sentenceScores| == 0 ==> r == NeutralDefault
    ensures !Text.IsBlank(text) && |sentenceScores| > 0 ==> r == Classify(Mean(sentenceScores))
    ensures 1 <= r.score <= 5 && r.sentiment == LabelOfScore(r.score) && r.mood == EmojiOfScore(r.score)
  {
    Text.TrimEmptyIffBlank(text);
    if Text.Utf16Length(Text.Trim(text)) == 0 then NeutralDefault
    else if |sentenceScores| == 0 then NeutralDefault
    else Classify(Mean(sentenceScores))
  }

  /** A higher average never gives a lower score. */
  lemma ScoreIsMonotone(a: real, b: real)
    requires a <= b
    ensures Classify(a).score <= Classify(b).score
  {
  }

  /** Each band's upper bound belongs to that band, and everything above 0.4 scores 5. */
  lemma BandUpperBoundsAreInclusive(avg: real)
    ensures Classify(-0.4).score == 1 && Classify(-0.1).score == 2
    ensures Classify(0.1).score == 3 && Classify(0.4).score == 4
    ensures avg > 0.4 ==> Classify(avg).score == 5
  {
  }

  /** Distinct scores show distinct emoji. */
  lemma EmojiIdentifiesScore(a: int, b: int)
    requires 1 <= a <= 5 && 1 <= b <= 5
    ensures EmojiOfScore(a) == EmojiOfScore(b) <==> a == b
  {
  }

  /** The sum of scores lying between `lo` and `hi` lies between `n * lo` and `n * hi`. */
  lemma {:induction false} SumBounds(s: seq<real>, lo: real, hi: real)
    requires forall i :: 0 <= i < |s| ==> lo <= s[i] <= hi
    ensures (|s| as real) * lo <= Sum(s) <= (|s| as real) * hi
    decreases |s|
  {
    if s != [] {
      SumBounds(s[..|s| - 1], lo, hi);
    }
  }

  /** Scores that are all equal sum to their number times that score. */
  lemma SumOfEqualScores(s: seq<real>)
    requires |s| > 0
    ensures (forall i :: 0 <= i < |s| ==> s[i] == s[0]) ==> Sum(s) == (|s| as real) * s[0]
  {
    if forall i :: 0 <= i < |s| ==> s[i] == s[0] {
      SumBounds(s, s[0], s[0]);
    }
  }

  /** The mean of scores lying between `lo` and `hi` lies between them too. */
  lemma MeanBounds(s: seq<real>, lo: real, hi: real)
    requires |s| > 0
    requires forall i :: 0 <= i < |s| ==> lo <= s[i] <= hi
    ensures lo <= Mean(s) <= hi
  {
    SumBounds(s, lo, hi);
    QuotientBounds(Sum(s), |s| as real, lo, hi);
  }

  /** Dividing by a positive `n` keeps a value between `n * lo` and `n * hi` between `lo` and `hi`. */
  lemma QuotientBounds(x: real, n: real, lo: real, hi: real)
    requires n > 0.0 && n * lo <= x <= n * hi
    ensures lo <= x / n <= hi
  {
    var q := x / n;
    assert q * n == x;
  }

  /** The overall score lies between the scores the lowest and the highest
      sentence would get on their own; in particular, when every sentence
      falls in one band, so does the text. */
  lemma ScoreBetweenExtremeSentences(text: string, sentenceScores: seq<real>, lo: real, hi: real)
    requires !Text.IsBlank(text) && |sentenceScores| > 0
    requires forall i :: 0 <= i < |sentenceScores| ==> lo <= sentenceScores[i] <= hi
    ensures Classify(lo).score <= AnalyzeSentiment(text, sentenceScores).score <= Classify(hi).score
  {
    MeanBounds(sentenceScores, lo, hi);
    ScoreIsMonotone(lo, Mean(sentenceScores));
    ScoreIsMonotone(Mean(sentenceScores), hi);
  }
}

=== FILE: text.dfy ===
/**
 * The JavaScript string operations the routes rely on, written out over
 * `string` (a sequence of Unicode scalar values): `trim`, `.length` (which
 * counts UTF-16 code units), `split` on a run-of-separators pattern,
 * `startsWith`, `includes`, `toLowerCase` and number-to-text interpolation.
 */
module Text {

  /** The characters JavaScript's `\s` and `String.prototype.trim` treat as
      white space: the ECMAScript WhiteSpace and LineTerminator code points. */
  predicate IsWhitespace(c: char) {
    || c == '\t' || c == '\n' || c == '\U{000B}' || c == '\U{000C}' || c == '\r'
    || c == ' ' || c == '\U{00A0}' || c == '\U{1680}'
    || ('\U{2000}' <= c <= '\U{200A}')
    || c == '\U{2028}' || c == '\U{2029}' || c == '\U{202F}' || c == '\U{205F}'
    || c == '\U{3000}' || c == '\U{FEFF}'
  }

  /** True when the string holds nothing but white space (or nothing at all). */
  predicate IsBlank(s: string) {
    forall i :: 0 <= i < |s| ==> IsWhitespace(s[i])
  }

  /** Drops leading white space. */
  function TrimStart(s: string): (r: string)
    ensures |r| <= |s| && r == s[|s| - |r|..]
    ensures r == [] || !IsWhitespace(r[0])
    ensures forall i :: 0 <= i < |s| - |r| ==> IsWhitespace(s[i])
  {
    if |s| > 0 && IsWhitespace(s[0]) then TrimStart(s[1..]) else s
  }

  /** Drops trailing white space. */
  function TrimEnd(s: string): (r: string)
    ensures |r| <= |s| && r == s[..|r|]
    ensures r == [] || !IsWhitespace(r[|r| - 1])
    ensures forall i :: |r| <= i < |s| ==> IsWhitespace(s[i])
  {
    if |s| > 0 && IsWhitespace(s[|s| - 1]) then TrimEnd(s[..|s| - 1]) else s
  }

  /** `String.prototype.trim`: the longest infix that neither starts nor ends
      with white space, everything cut away being white space. */
  function Trim(s: string): (r: string)
    ensures |r| <= |s|
    ensures r == [] || (!IsWhitespace(r[0]) && !IsWhitespace(r[|r| - 1]))
  {
    TrimStart(TrimEnd(s))
  }

  /** What `trim` keeps is an infix of its input, and everything it cuts away
      on either side is white space. */
  lemma TrimIsInfix(s: string)
    ensures exists lo :: OccursAt(s, Trim(s), lo) && IsBlank(s[..lo]) && IsBlank(s[lo + |Trim(s)|..])
  {
    var e := TrimEnd(s);
    var r := TrimStart(e);
    var lo := |e| - |r|;
    assert s[lo..lo + |r|] == e[lo..] == r;
    assert s[..lo] == e[..lo];
    assert forall i :: 0 <= i < lo ==> s[..lo][i] == e[i];
    assert forall i :: 0 <= i < |s| - |e| ==> s[|e|..][i] == s[|e| + i];
    assert OccursAt(s, r, lo) && IsBlank(s[..lo]) && IsBlank(s[lo + |r|..]);
  }

  /** Trimming yields the empty string exactly for blank input. */
  lemma TrimEmptyIffBlank(s: string)
    ensures Trim(s) == [] <==> IsBlank(s)
  {
    var e := TrimEnd(s);
    if !IsBlank(s) {
      var i :| 0 <= i < |s| && !IsWhitespace(s[i]);
      assert i < |e| && e[i] == s[i];
    }
  }

  /** Trimming a string that already starts and ends with a visible character
      and is followed by a single line break gives back that string. */
  lemma TrimDropsFinalNewline(body: string)
    requires |body| > 0 && !IsWhitespace(body[0]) && !IsWhitespace(body[|body| - 1])
    ensures Trim(body + "\n") == body
  {
    var s := body + "\n";
    assert s[..|s| - 1] == body;
    assert TrimEnd(s) == TrimEnd(body) == body;
  }

  /** The same for a string assembled from two parts. */
  lemma TrimJoinedDropsFinalNewline(head: string, tail: string)
    requires |head| > 0 && !IsWhitespace(head[0])
    requires |tail| > 0 && !IsWhitespace(tail[|tail| - 1])
    ensures Trim(head + tail + "\n") == head + tail
  {
    var body := head + tail;
    assert body[0] == head[0] && body[|body| - 1] == tail[|tail| - 1];
    TrimDropsFinalNewline(body);
  }

  /** The number of UTF-16 code units that encode `c`: JavaScript's `.length`
      counts two for every code point outside the Basic Multilingual Plane. */
  function Utf16Units(c: char): nat {
    if c as int >= 0x1_0000 then 2 else 1
  }

  /** JavaScript's `.length` of a string. */
  function Utf16Length(s: string): (n: nat)
    ensures |s| <= n <= 2 * |s|
    ensures (forall i :: 0 <= i < |s| ==> s[i] as int < 0x1_0000) ==> n == |s|
  {
    if s == [] then 0 else Utf16Units(s[0]) + Utf16Length(s[1..])
  }

  /** `s.startsWith(p)`. */
  predicate IsPrefix(p: string, s: string) {
    |p| <= |s| && s[..|p|] == p
  }

  /** `w` occurs in `s` starting at index `i`. */
  predicate OccursAt(s: string, w: string, i: int) {
    0 <= i <= |s| - |w| && s[i..i + |w|] == w
  }

  /** `s.includes(w)`: some suffix of `s` starts with `w`. */
  predicate Contains(s: string, w: string)
    decreases |s|
  {
    IsPrefix(w, s) || (|s| > 0 && Contains(s[1..], w))
  }

  /** `Contains` holds exactly when `w` occurs at some index of `s`. */
  lemma {:induction false} ContainsIffOccurs(s: string, w: string)
    ensures Contains(s, w) <==> exists i :: OccursAt(s, w, i)
    decreases |s|
  {
    if IsPrefix(w, s) {
      assert OccursAt(s, w, 0);
    } else if |s| == 0 {
    } else {
      ContainsIffOccurs(s[1..], w);
      if exists i :: OccursAt(s, w, i) {
        var i :| OccursAt(s, w, i);
        assert i != 0;
        assert OccursAt(s[1..], w, i - 1);
      }
      if Contains(s[1..], w) {
        var j :| OccursAt(s[1..], w, j);
        assert OccursAt(s, w, j + 1);
      }
    }
  }

  /** `toLowerCase` restricted to the ASCII letters. */
  function LowerChar(c: char): char {
    if 'A' <= c <= 'Z' then (c as int + 32) as char else c
  }

  function ToLower(s: string): (r: string)
    ensures |r| == |s|
    ensures forall i :: 0 <= i < |s| ==> r[i] == LowerChar(s[i])
  {
    seq(|s|, i requires 0 <= i < |s| => LowerChar(s[i]))
  }

  /** The decimal text JavaScript prints for a non-negative integer. */
  function NatToString(n: nat): (r: string)
    ensures |r| > 0
    ensures forall i :: 0 <= i < |r| ==> '0' <= r[i] <= '9'
  {
    var d := ['0' + (n % 10) as char];
    if n < 10 then d else NatToString(n / 10) + d
  }

  /** The two separator classes the analysis route splits on: runs of white
      space (`/\s+/`) and runs of sentence terminators (`/[.!?]+/`). */
  datatype Separator = Whitespace | Terminator

  predicate IsSeparator(sep: Separator, c: char) {
    match sep
    case Whitespace => IsWhitespace(c)
    case Terminator => c == '.' || c == '!' || c == '?'
  }

  /** `s.split(pattern)` for a pattern matching maximal non-empty runs of
      separator characters: the pieces between the runs, including the empty
      pieces before a leading run and after a trailing one. */
  function Split(s: string, sep: Separator): (pieces: seq<string>)
    ensures |pieces| >= 1
    ensures forall k, i :: 0 <= k < |pieces| && 0 <= i < |pieces[k]| ==> !IsSeparator(sep, pieces[k][i])
  {
    if s == [] then [""]
    else
      var rest := Split(s[1..], sep);
      if IsSeparator(sep, s[0]) then
        if |s| > 1 && IsSeparator(sep, s[1]) then rest else [""] + rest
      else
        [[s[0]] + rest[0]] + rest[1..]
  }

  /** The number of maximal runs of characters whose separator status is
      `inside`: with `inside` the separator runs, without it the tokens. */
  function Runs(s: string, sep: Separator, inside: bool): nat {
    if s == [] then 0
    else
      var endsHere := IsSeparator(sep, s[0]) == inside && (|s| == 1 || IsSeparator(sep, s[1]) != inside);
      (if endsHere then 1 else 0) + Runs(s[1..], sep, inside)
  }

  /** Splitting yields one piece more than there are separator runs. */
  lemma {:induction false} SplitCountsRuns(s: string, sep: Separator)
    ensures |Split(s, sep)| == Runs(s, sep, true) + 1
  {
    if s != [] {
      SplitCountsRuns(s[1..], sep);
    }
  }

  /** In a string ending in a non-separator, the token runs outnumber the
      separator runs by one, or equal them when the string starts with a separator. */
  lemma {:induction false} TokenRunsVersusSeparatorRuns(s: string, sep: Separator)
    requires |s| > 0 && !IsSeparator(sep, s[|s| - 1])
    ensures Runs(s, sep, false) == Runs(s, sep, true) + (if IsSeparator(sep, s[0]) then 0 else 1)
  {
    if |s| > 1 {
      TokenRunsVersusSeparatorRuns(s[1..], sep);
    }
  }

  /** On a string that neither starts nor ends with a separator, splitting
      yields exactly one piece per token. */
  lemma SplitCountsTokens(s: string, sep: Separator)
    requires |s| > 0 && !IsSeparator(sep, s[0]) && !IsSeparator(sep, s[|s| - 1])
    ensures |Split(s, sep)| == Runs(s, sep, false)
  {
    SplitCountsRuns(s, sep);
    TokenRunsVersusSeparatorRuns(s, sep);
  }

  /** The pieces joined with nothing between them. */
  function Concat(pieces: seq<string>): string {
    if pieces == [] then "" else pieces[0] + Concat(pieces[1..])
  }

  /** `s` with every separator character removed. */
  function Strip(s: string, sep: Separator): (r: string)
    ensures |r| <= |s|
  {
    if s == [] then ""
    else (if IsSeparator(sep, s[0]) then "" else [s[0]]) + Strip(s[1..], sep)
  }

  /** Splitting trimmed, non-empty text on white space gives one piece per word. */
  lemma SplitTrimCountsTokens(s: string)
    requires Trim(s) != []
    ensures |Split(Trim(s), Whitespace)| == Runs(Trim(s), Whitespace, false) >= 1
  {
    SplitCountsTokens(Trim(s), Whitespace);
  }

  /** Splitting loses only the separators: the pieces, joined, are the
      string's other characters in order. */
  lemma {:induction false} ConcatSplit(s: string, sep: Separator)
    ensures Concat(Split(s, sep)) == Strip(s, sep)
  {
    if s != [] {
      ConcatSplit(s[1..], sep);
      var rest := Split(s[1..], sep);
      if !IsSeparator(sep, s[0]) {
        var pieces := [[s[0]] + rest[0]] + rest[1..];
        assert Concat(rest) == rest[0] + Concat(rest[1..]);
        assert pieces[1..] == rest[1..];
      } else if !(|s| > 1 && IsSeparator(sep, s[1])) {
        assert ([""] + rest)[1..] == rest;
      }
    }
  }

  /** Joined pieces are blank exactly when every piece is. */
  lemma {:induction false} BlankConcat(pieces: seq<string>)
    ensures IsBlank(Concat(pieces)) <==> forall p :: p in pieces ==> IsBlank(p)
  {
    if pieces != [] {
      BlankConcat(pieces[1..]);
      var head, tail := pieces[0], Concat(pieces[1..]);
      assert forall i :: 0 <= i < |head| ==> (head + tail)[i] == head[i];
      assert forall i :: 0 <= i < |tail| ==> (head + tail)[|head| + i] == tail[i];
      assert IsBlank(head + tail) <==> IsBlank(head) && IsBlank(tail);
      assert pieces == [head] + pieces[1..];
    }
  }

  /** With the separators removed, a string is blank exactly when each of
      its characters is white space or a separator. */
  lemma {:induction false} BlankStrip(s: string, sep: Separator)
    ensures IsBlank(Strip(s, sep)) <==> forall i :: 0 <= i < |s| ==> IsWhitespace(s[i]) || IsSeparator(sep, s[i])
  {
    if s != [] {
      BlankStrip(s[1..], sep);
      var head := if IsSeparator(sep, s[0]) then "" else [s[0]];
      var tail := Strip(s[1..], sep);
      assert Strip(s, sep) == head + tail;
      assert forall i :: 0 <= i < |head| ==> (head + tail)[i] == head[i];
      assert forall i :: 0 <= i < |tail| ==> (head + tail)[|head| + i] == tail[i];
      assert IsBlank(head + tail) <==> IsBlank(head) && IsBlank(tail);
      assert forall i :: 1 <= i < |s| ==> s[i] == s[1..][i - 1];
    }
  }
}

=== FILE: wrappers.dfy ===
/** Failure-carrying result types shared by every module of the model. */
module Wrappers {

  /** A value that may be absent: a missing field, an empty storage slot, a failed parse. */
  datatype Option<+T> = None | Some(value: T) {

    /** Returns the carried value, or `default` when there is none. */
    function GetOr(default: T): T {
      match this
      case Some(v) => v
      case None => default
    }
  }

  /** The outcome of an operation that either succeeds with a value or fails with an error. */
  datatype Result<+R, +E> = Success(value: R) | Failure(error: E)
}
